=== FILE: README.md ===
# nabi-back request rules, in Dafny

A model of the decision logic of the nabi-back order server. The server is an
Express application that takes hot-cake orders and lets an administrator log
in, register a push-notification (FCM) token and move orders through their
statuses. The model covers:

- the CORS origin allowlist;
- the `auth` middleware that checks the `Authorization: Bearer <token>` header;
- the handlers for login, FCM-token registration, order creation and status update;
- the fallback 404 and the global error handler;
- the three Mongoose schemas (`Order`, `Ingredient`, `Package`), as `trim`
  setters, `default` filling and `required`/`enum`/`min` validators.

Modelling choices:

- **JavaScript values.** A JSON body field is a `Js.JsValue` (undefined, null,
  boolean, number, string or array). JavaScript truthiness (`Js.Truthy`) is
  stated explicitly, because every presence check in the handlers is a
  truthiness test.
- **External services.** The store (MongoDB), `bcrypt.compare`, `jwt.sign`,
  `jwt.verify`, `Date.now`, `String(number)`, `parseInt` and `parseFloat` are
  not re-implemented. Their answers are parameters: a `Js.Runtime` record for
  number conversions, a `Server.World` record for everything else, and plain
  arguments of the handlers.
- **Store calls.** A handler returns an `Http.Exchange`: the store operations
  it issued and the response it sent. This makes "nothing reaches the store"
  a checkable statement (`calls == []`).
- **Schema mismatches.** The handlers and the order schema disagree in places.
  Module `Mismatches` states each disagreement as a property of the model
  rather than repairing it:
  - the status-update whitelist accepts two values the schema's enum lacks;
  - `extras` is built as one string, but the schema declares an array;
  - a truthy quantity that does not parse becomes 0, and the schema minimum
    then rejects it with 400;
  - a `delivery` made only of spaces is kept, then trimmed to "" and rejected
    by the enum.
- **Where Mongoose behaviour matters.** Several schema rules depend on how
  Mongoose behaves, and the model follows it:
  - `required` on a String path fails for an absent value and for "";
  - `enum` and `min` only look at present values;
  - each path reports at most one error, and `required` is checked first;
  - setters change only the paths a value is given for, and defaults fill only
    the absent ones, so applying the setters and then the defaults gives the
    document Mongoose builds, whichever of the two it runs first;
  - a scalar assigned to an array path becomes a one-element array;
  - paths the schema does not declare (`vestimenta`) are dropped;
  - `findByIdAndUpdate` runs no validators.

## Model

| member | source | states |
|---|---|---|
| Text.Trim | server.js:171-181 | `toString().trim()` yields a string that neither starts nor ends with an ECMAScript white-space or line-terminator character, and is no longer than its input |
| Text.TrimUnique | server.js:171 | trim characterised independently of its definition: for a trimmed middle surrounded by white space on either side, trim returns exactly that middle |
| Text.TrimIdempotent | models/order.js:7 | trimming an already trimmed value changes nothing, so a `trim` setter applied twice equals applying it once |
| Text.Split | middleware/auth.js:11 | `split(' ')` returns at least one field and no field contains the separator |
| Text.JoinSplit | middleware/auth.js:11 | joining the fields of `split(sep)` with `sep` restores the original header |
| Text.SplitJoin | middleware/auth.js:11 | splitting the join of separator-free fields returns those fields (the inverse direction) |
| Text.SplitCountsSeparator | middleware/auth.js:11-13 | a string splits into more than one field exactly when it contains the separator |
| Text.IndexOf | server.js:26 | `indexOf` is -1 exactly when the element is absent; otherwise it is the position of the first occurrence |
| Schema.CheckString | models/order.js:4-8 | a String path reports at most one error. It reports none exactly when the path's `required`/`enum` rules hold. A missing or empty required value gives `Required`, checked before `enum`. A present value outside the enum otherwise gives `NotInEnum` |
| Schema.CheckNumber | models/order.js:9-13 | a Number path reports at most one error, and none exactly when `required`/`min` hold. A missing required value gives exactly `Required(path)`. A present value under the minimum gives `BelowMin` with that value and minimum |
| Schema.TrimSetter | models/order.js:4-8 | the `trim` setter turns a present value into `Text.Trim` of it and keeps an absent one absent; in particular the result is trimmed and an already trimmed value is unchanged |
| Schema.TrimList | models/order.js:20-23 | the element setter of a `[{ type: String, trim: true }]` path keeps the length and makes each element the `Text.Trim` of the input element at that position. An already trimmed list is unchanged |
| OrderModel.ApplyTrim | models/order.js:4-65 | each `trim: true` path (customer, the four arrays, notas, punto, dia, hora, phone) becomes its setter's result on the input value. `package`, `delivery`, `status`, the numbers and `createdAt` are untouched. An already trimmed document is unchanged |
| OrderModel.ApplyDefaults | models/order.js:14-79 | every path with a `default` is filled: `[]` for the four array paths, 'Chocolate', '' for notas/punto/dia/hora, 'recoger', 'Pendiente', and `now` for `createdAt`. Every value already present is kept |
| OrderModel.Validate | models/order.js:3-80 | at most seven errors, each naming one of the seven validated paths |
| OrderModel.ValidateOnePerPath | models/order.js:3-80 | no two errors of one validation name the same path: each path reports at most one error |
| OrderModel.ValidateIff | models/order.js:3-80 | validation reports no error exactly when the document conforms. Conforming means customer, phone, quantity and total are present (strings non-empty), `quantity >= 1`, `total >= 0`, and package/delivery/status hold listed values |
| OrderModel.QuantityBelowMinimum | models/order.js:9-13 | a quantity below 1 is reported as `BelowMin("quantity", q, 1)` |
| OrderModel.StatusOutsideEnum | models/order.js:71-75 | a status outside {Pendiente, Entregado, Cancelado} is reported as `NotInEnum` |
| OrderModel.DeliveryOutsideEnum | models/order.js:41-45 | a delivery mode other than 'recoger' or 'punto' is reported as `NotInEnum` |
| OrderModel.Create | models/order.js:3-80 | `new Order(data)` keeps every given value after its setter: customer, phone and the other `trim` paths become their trimmed text, and package, delivery, status, quantity, total and createdAt are kept. Every absent path gets its declared default: `[]` for the four arrays, '' for notas/punto/dia/hora, 'Chocolate', 'recoger', 'Pendiente', and `now` for createdAt |
| OrderModel.DefaultsIdempotent | models/order.js:14-79 | filling defaults a second time, at any later time, changes nothing |
| OrderModel.CreateIdempotent | models/order.js:3-80 | constructing a document from an already constructed one changes nothing (setters and defaults together) |
| OrderModel.DefaultsPreserveConformance | models/order.js:17-18 | the defaults never make a valid document invalid |
| OrderModel.MissingPackageDefaults | models/order.js:14-19 | a document without `package` becomes a 'Chocolate' order and gets no `required` error for it |
| IngredientModel.ApplyTrim | models/Ingredient.js:4-8 | `name` becomes the `trim` setter's result on the given name; no other path changes |
| IngredientModel.ApplyDefaults | models/Ingredient.js:14-38 | price 0, available true, hasExtraCost false, order 0, both timestamps `now`, each only where the path is absent. Name and category are untouched |
| IngredientModel.ValidateIff | models/Ingredient.js:3-39 | no errors exactly when `name` is non-empty, `category` is one of liquidos/frutas/toppings/extras, and a present price is `>= 0` |
| IngredientModel.PreSave | models/Ingredient.js:41-45 | the pre-save hook sets `updatedAt` to the save time and leaves every other path as it was |
| IngredientModel.PreSaveKeepsValidity | models/Ingredient.js:41-45 | the hook does not change validation, and a second save only moves `updatedAt` again |
| IngredientModel.SavedIngredient | models/Ingredient.js:14-45 | a new saved ingredient has every default filled and `updatedAt` equal to the save time, even if the data supplied another |
| IngredientModel.Create | models/Ingredient.js:3-39 | `new Ingredient(data)` trims the given name and keeps the category. Each of price, available, hasExtraCost, order, createdAt and updatedAt keeps its given value, or else gets its default 0, true, false, 0, `now`, `now` |
| IngredientModel.CreateIdempotent | models/Ingredient.js:3-39 | constructing from a constructed ingredient changes nothing |
| PackageModel.ApplyTrim | models/package.js:4-8 | `name` becomes the `trim` setter's result on the given name; `description` and `icon`, which have no `trim`, and every other path are unchanged |
| PackageModel.ApplyDefaults | models/package.js:9-41 | description '', ingredient list `[]`, available true, order 0, icon 'fas fa-box' and the timestamps, each only where absent. Name and price are untouched |
| PackageModel.ValidateIff | models/package.js:3-17 | no errors exactly when `name` is non-empty and `price` is present and `>= 0` |
| PackageModel.CreateValidIff | models/package.js:3-17 | a package is valid after creation exactly when its trimmed name is non-empty and a non-negative price was given; defaults play no part |
| PackageModel.Create | models/package.js:3-42 | `new Package(data)` trims the given name and keeps the price. Each of description, ingredients, available, order, icon, createdAt and updatedAt keeps its given value, or else gets its default '', `[]`, true, 0, 'fas fa-box', `now`, `now` |
| PackageModel.CreateIdempotent | models/package.js:3-42 | constructing from a constructed package changes nothing |
| Cors.Decide | server.js:17-31 | a request is allowed exactly when its origin is absent, empty, or one of the five listed origins. Any other origin is blocked with 'No permitido por CORS' |
| Cors.ExactMatchOnly | server.js:18-26 | matching is exact: a trailing slash, another port or another scheme is not allowed |
| Auth.SecondField | middleware/auth.js:11 | `split(' ')[1]` is undefined exactly when the header has no space, and otherwise a space-free word |
| Auth.BearerTokenIsFirstWord | middleware/auth.js:7-11 | for a header starting with 'Bearer ', the extracted token is the first word after the scheme |
| Auth.Authenticate | middleware/auth.js:3-24 | every stop is a 401. No header, or one not starting with 'Bearer ', gives 'Token de acceso requerido'. An empty token gives 'Token mal formado'. A failed verification gives 'Token inválido o expirado'. Otherwise `next` runs with the decoded payload |
| Auth.NextIff | middleware/auth.js:17-19 | `next` runs exactly when the header has the scheme, a non-empty token, and that token verifies |
| Auth.ExtraFieldsIgnored | middleware/auth.js:11 | 'Bearer a b' authenticates exactly as 'Bearer a' |
| Auth.DoubleSpaceIsMalformed | middleware/auth.js:11-15 | two spaces after the scheme give 'Token mal formado', whatever follows and whatever `verify` would say |
| Auth.SchemeIsExact | middleware/auth.js:7-9 | the scheme is case-sensitive and needs its space |
| Handlers.Login | server.js:93-126 | a falsy username or password gives 400 before any lookup. Otherwise there is exactly one lookup. An unknown user or a wrong password gives 401 'Usuario o contraseña incorrectos'. A failed lookup, a failed compare or a failed `jwt.sign` gives 500. The response is 200 exactly when the user exists, the password matches and signing succeeds, and its token signs that user's id and name |
| Handlers.LoginHidesUnknownUsers | server.js:101-109 | an unknown username and a wrong password give identical exchanges, and that answer is 401 'Usuario o contraseña incorrectos' |
| Handlers.RegisterFcmToken | server.js:129-142 | a falsy token gives 400 with no update. Otherwise there is exactly one update for the authenticated user, answered with 200, or with 500 if the update fails |
| Handlers.WithAuth | server.js:129 | a route behind `auth` runs its handler with the decoded payload, or answers 401 with no store call |
| Handlers.TextOr | server.js:177-180 | `v ? v.toString().trim() : d` is trimmed; it is `d` for a falsy value and the trimmed text otherwise |
| Handlers.Normalize | server.js:149-184 | the normalised order has status 'Pendiente' whatever the input. customer, package and phone are the trimmed text of the input values. A truthy extras, delivery, punto or vestimenta is its trimmed text; a falsy delivery becomes 'recoger' and falsy extras/punto become ''. Non-array liquidos/frutas/toppings become `[]`. Quantity and total are the parse-or-zero values |
| Handlers.CastElement | models/order.js:20-35 | casting one array element to a String path keeps a string, converts a number or boolean to its text, and fails exactly for undefined, null and nested arrays |
| Handlers.CastList | models/order.js:20-35 | casting an array of JSON values to strings succeeds exactly when every element casts, element by element and length preserving |
| Handlers.ToDocument | server.js:170-188 | the document passed to `new Order` holds customer, package, phone, delivery, punto, status, quantity and total as given, the three arrays as cast element by element, and `extras` as a one-element array. notas, dia, hora and createdAt are unset. Cast errors are reported exactly when some array element does not cast |
| Handlers.VestimentaDropped | server.js:180 | `vestimenta` is built but has no effect on the document: it is not a schema path |
| Handlers.Prepare | server.js:188-189 | the constructed document is trimmed, defaulted and 'Pendiente', with the parsed quantity and the normalised delivery. Every validation error is reported, and no error means the document conforms |
| Handlers.PrepareErrorsIff | server.js:188-189 | no error is reported exactly when every array element casts and the constructed document conforms to the schema |
| Handlers.PreparedFromRequest | server.js:170-184 | the constructed document's customer, package and phone are the trimmed text of the request's values, and its total the parsed total |
| Handlers.CreateOrder | server.js:144-217 | a missing required field gives 400 with no insert. A validation error gives 400 with those errors and no insert. An order without errors is inserted exactly once, as the prepared document, which conforms, is trimmed and is 'Pendiente'. 201 exactly when inserted and the store did not fail; a store failure with message m gives 500 'Error interno del servidor: ' + m |
| Handlers.Save | server.js:188-216 | validation errors give 400 with those errors and no insert; otherwise exactly one insert of the document, answered 201 with it, or 500 with the store's message |
| Handlers.UpdateStatus | server.js:231-259 | a status outside the five accepted values gives 400 with no store call. Otherwise exactly one update; a missing order gives 404, a store failure 500, and a found order 200 with its status replaced |
| Mismatches.StatusListsDiffer | server.js:236 | the handler accepts exactly 'Preparando' and 'Listo' beyond the schema's enum (models/order.js:73), and every schema status is accepted |
| Mismatches.PreparandoBreaksSchema | server.js:240-252 | moving a valid order to 'Preparando' succeeds with 200 and leaves an order the schema's validators reject |
| Mismatches.LowQuantityRejected | server.js:164-205 | a truthy quantity that parses below 1 passes the presence check, and the schema minimum then rejects it: 400, `BelowMin`, nothing stored |
| Mismatches.NonNumericQuantityRejected | server.js:172 | a truthy quantity that does not parse becomes 0 and is rejected with 400 |
| Mismatches.ExtrasStoredAsOneString | server.js:177 | the stored `extras` is always a one-element array holding the trimmed text, although the schema declares a list (models/order.js:32-35) |
| Mismatches.ExtrasListFlattened | server.js:177 | the list ["a", "b"] becomes the single entry "a,b" |
| Mismatches.BlankDeliveryRejected | server.js:178 | a delivery of only spaces is truthy, so it is kept and trimmed to "", which the enum rejects: 400, `NotInEnum("delivery", "")`, nothing stored |
| Server.Dispatch | server.js:93-259 | a protected route with a rejected token answers 401 with no store call. Every route answers with one of 200/201/400/401/404/500 |
| Server.Handle | server.js:262-270 | a request the CORS callback blocks ends in the global error handler's 500. A preflight from an allowed origin gets 204. An unmatched request gets 404 'Ruta no encontrada'. Store calls happen only for allowed, routed, non-preflight requests |
| Server.ProtectedNeedsToken | server.js:129-231 | FCM registration and status update never reach the store without a valid token |
| Server.PublicRoutesIgnoreToken | server.js:93-145 | the `Authorization` header has no effect on login and order creation |
| Server.CorsErrorIsGeneric500 | server.js:266-270 | a request from an unlisted origin gets the generic 500 'Error interno del servidor', never the CORS message |

## Left out

- Store operations (`findOne`, `save`, `findByIdAndUpdate`, `find`) are not executed. Their answers are parameters: found, missing, or failed with a message.
- `jwt.sign`, `jwt.verify` and `bcrypt.compare` are oracles; the 30-day expiry and the secret are theirs.
- Number formatting and `parseInt`/`parseFloat` are oracles. Numbers are reals, so NaN, infinities, -0 and floating-point rounding are not modelled.
- JSON objects as body values are not modelled; a field is undefined, null, boolean, number, string or array.
- The text of Mongoose validation messages, and the joined 'Error de validación: …' message, are not rendered. `Http.ValidationFailure` carries the structured errors: cast errors first, then validator errors in schema order.
- The `CastError` branch of order creation (server.js:207-211) is not modelled. Mongoose reports array element cast failures from `save` as validation errors.
- Handlers.CastElement: a `null` or `undefined` array element is treated as a cast failure, while Mongoose's String cast returns both unchanged; an `undefined` element cannot come from a JSON body.
- Handlers.CastList: inherits the `null`-element divergence of `Handlers.CastElement`.
- The health routes (server.js:73-91) and the order list (server.js:220-228) are not modelled. They read only the connection state, the clock and the store.
- Express's choice of route for a method and path is given with the request (`Server.Request.route`); path matching is not modelled. helmet, `express.json` parse errors and logging are left out too.
- The MongoDB connection and `listen` startup code are left out.
- createAdmin.js is left out: it is a one-shot script with store and console I/O.
- `models/User.js` is not part of this model: only the `id`, `username` and `passwordHash` that the handlers read are represented.

=== FILE: auth.dfy ===
/** The `auth` middleware: reads `Authorization: Bearer <token>`, verifies
    the token, and either passes the decoded payload on to the route handler
    (`next()`) or answers 401. Token verification (`jwt.verify` with the
    server secret) is the `verify` oracle: `Some(payload)` for a valid,
    unexpired token, `None` where the library throws. */
module Auth {
  import opened Wrappers
  import Text
  import Http

  /** The payload the login route signs: `{ id, username }`. */
  datatype Claims = Claims(id: string, username: string)

  const Scheme := "Bearer "
  const MissingMessage := "Token de acceso requerido"
  const MalformedMessage := "Token mal formado"
  const InvalidMessage := "Token inválido o expirado"

  datatype Outcome =
    | Next(user: Claims)            // `req.user = decoded; next()`
    | Stop(response: Http.Response) // `res.status(401).json(...)`

  /** `authHeader.split(' ')[1]`, `None` standing for `undefined` when the
      header has fewer than two fields. */
  function SecondField(header: string): (t: Option<string>)
    ensures t.None? <==> ' ' !in header
    ensures t.Some? ==> ' ' !in t.value
  {
    var parts := Text.Split(header, ' ');
    Text.SplitCountsSeparator(header, ' ');
    if |parts| < 2 then None else Some(parts[1])
  }

  /** The first space-separated word of `s`: all of `s` up to its first space. */
  function FirstWord(s: string): (w: string)
    ensures ' ' !in w
  {
    Text.Split(s, ' ')[0]
  }

  /** The token of a header that starts with `Bearer `: the word right after
      the scheme, which is empty when a second space follows the scheme. */
  lemma {:induction false} BearerTokenIsFirstWord(t: string)
    ensures SecondField(Scheme + t) == Some(FirstWord(t))
  {
    assert Scheme + t == "Bearer" + ([' '] + t);
    Text.SplitAfterField("Bearer", ' ', t);
  }

  function Authenticate(header: Option<string>, verify: string -> Option<Claims>): (r: Outcome)
    ensures r.Stop? ==> r.response.status == 401
    ensures header.None? || !Text.StartsWith(header.value, Scheme) ==>
              r == Stop(Http.Response(401, Http.Message(MissingMessage)))
    ensures header.Some? && Text.StartsWith(header.value, Scheme) ==>
              var token := FirstWord(header.value[|Scheme|..]);
              && (token == "" ==> r == Stop(Http.Response(401, Http.Message(MalformedMessage))))
              && (token != "" && verify(token).None? ==>
                    r == Stop(Http.Response(401, Http.Message(InvalidMessage))))
              && (token != "" && verify(token).Some? ==> r == Next(verify(token).value))
  {
    if header.None? || header.value == "" || !Text.StartsWith(header.value, Scheme) then
      Stop(Http.Response(401, Http.Message(MissingMessage)))
    else
      var token := SecondField(header.value);
      assert header.value == Scheme + header.value[|Scheme|..];
      BearerTokenIsFirstWord(header.value[|Scheme|..]);
      if token.None? || token.value == "" then
        Stop(Http.Response(401, Http.Message(MalformedMessage)))
      else
        match verify(token.value)
        case Some(decoded) => Next(decoded)
        case None => Stop(Http.Response(401, Http.Message(InvalidMessage)))
  }

  /** `next` runs exactly when the header carries a token that verifies, and
      the handler then sees the payload the token decodes to. */
  lemma NextIff(header: Option<string>, verify: string -> Option<Claims>)
    ensures Authenticate(header, verify).Next? <==>
              && header.Some? && Text.StartsWith(header.value, Scheme)
              && FirstWord(header.value[|Scheme|..]) != ""
              && verify(FirstWord(header.value[|Scheme|..])).Some?
  {
  }

  /** Words after the token are ignored: `Bearer a b` authenticates as `a`. */
  lemma {:induction false} ExtraFieldsIgnored(a: string, rest: string, verify: string -> Option<Claims>)
    requires ' ' !in a
    ensures Authenticate(Some(Scheme + a + " " + rest), verify)
         == Authenticate(Some(Scheme + a), verify)
  {
    var h1 := Scheme + a + " " + rest;
    var h2 := Scheme + a;
    assert h1[|Scheme|..] == a + ([' '] + rest);
    assert h2[|Scheme|..] == a;
    Text.FirstFieldOf(a, ' ', rest);
  }

  /** Two spaces after the scheme leave an empty token: 401 "Token mal formado"
      before the token is ever verified. */
  lemma {:induction false} DoubleSpaceIsMalformed(rest: string, verify: string -> Option<Claims>)
    ensures Authenticate(Some(Scheme + " " + rest), verify)
         == Stop(Http.Response(401, Http.Message(MalformedMessage)))
  {
    var h := Scheme + " " + rest;
    assert h[|Scheme|..] == "" + ([' '] + rest);
    Text.FirstFieldOf("", ' ', rest);
  }

  /** The scheme is matched case-sensitively and needs its space. */
  lemma SchemeIsExact(verify: string -> Option<Claims>)
    ensures Authenticate(Some("bearer abc"), verify).Stop?
    ensures Authenticate(Some("Bearer"), verify)
         == Stop(Http.Response(401, Http.Message(MissingMessage)))
  {
    assert !Text.StartsWith("bearer abc", Scheme) by {
      assert "bearer abc"[0] != Scheme[0];
    }
  }
}

=== FILE: cors.dfy ===
/** The `origin` callback given to the CORS middleware: an exact-match
    allowlist, with requests that carry no `Origin` header let through. */
module Cors {
  import opened Wrappers
  import Text

  const AllowedOrigins: seq<string> := [
    "http://localhost:3000",
    "http://localhost:3001",
    "http://localhost:5000",
    "https://nabi-hotcakes.netlify.app",
    "https://nabi-hotcakes.vercel.app"
  ]

  const BlockedMessage := "No permitido por CORS"

  /** `callback(null, true)` or `callback(new Error(message))`. */
  datatype Decision = Allow | Block(message: string)

  /** `!origin || allowedOrigins.indexOf(origin) !== -1`; an empty header
      value is falsy and so counts as absent. */
  function Decide(origin: Option<string>): (d: Decision)
    ensures d.Allow? <==> origin.None? || origin.value == "" || origin.value in AllowedOrigins
    ensures d.Block? ==> d.message == BlockedMessage
  {
    if origin.None? || origin.value == "" || Text.IndexOf(AllowedOrigins, origin.value) != -1 then Allow
    else Block(BlockedMessage)
  }

  /** Matching is exact: a trailing slash, another port or another scheme
      is a different origin. */
  lemma ExactMatchOnly()
    ensures Decide(Some("http://localhost:3000")) == Allow
    ensures Decide(Some("https://nabi-hotcakes.netlify.app")) == Allow
    ensures Decide(Some("http://localhost:3000/")).Block?
    ensures Decide(Some("http://localhost:3002")).Block?
    ensures Decide(Some("http://nabi-hotcakes.netlify.app")).Block?
    ensures Decide(None) == Allow
  {
    assert "http://localhost:3000" == AllowedOrigins[0];
    assert "https://nabi-hotcakes.netlify.app" == AllowedOrigins[3];
  }
}

=== FILE: handlers.dfy ===
/** The route handlers of the server with decision logic: login, FCM token
    registration, order creation and order status update, plus the
    composition of a handler with the `auth` middleware. Store queries,
    password comparison and token signing are supplied by the caller. */
module Handlers {
  import opened Wrappers
  import Text
  import Js
  import Schema
  import OrderModel
  import Http
  import Auth

  // ---------------------------------------------------------------- login

  datatype User = User(id: string, username: string, passwordHash: string)

  /** The answer of `bcrypt.compare(password, hash)`. */
  datatype PasswordCheck = PasswordMatches | PasswordDiffers | CheckFailed

  const CredentialsRequired := "Usuario y contraseña requeridos"
  const BadCredentials := "Usuario o contraseña incorrectos"

  /** `POST /api/auth/login`. `found` answers `User.findOne({ username })`,
      `check` answers `bcrypt.compare`, `sign` is `jwt.sign` with the server
      secret and a 30-day expiry, `None` where it throws. */
  function Login(username: Js.JsValue, password: Js.JsValue, found: Http.StoreResult<User>,
                 check: PasswordCheck, sign: Auth.Claims -> Option<string>): (x: Http.Exchange)
    ensures !Js.Truthy(username) || !Js.Truthy(password) <==>
              x == Http.Reply(400, CredentialsRequired)
    ensures Js.Truthy(username) && Js.Truthy(password) ==> x.calls == [Http.FindUser(username)]
    ensures Js.Truthy(username) && Js.Truthy(password)
            && (found.Missing? || (found.Found? && check == PasswordDiffers)) ==>
              x.response == Http.Response(401, Http.Message(BadCredentials))
    ensures Js.Truthy(username) && Js.Truthy(password)
            && (found.Failed? || (found.Found? && check == CheckFailed)) ==>
              x.response == Http.Response(500, Http.Message(Http.InternalError))
    ensures x.response.status == 200 <==>
              && Js.Truthy(username) && Js.Truthy(password) && found.Found? && check == PasswordMatches
              && sign(Auth.Claims(found.value.id, found.value.username)).Some?
    ensures Js.Truthy(username) && Js.Truthy(password) && found.Found? && check == PasswordMatches
            && sign(Auth.Claims(found.value.id, found.value.username)).None? ==>
              x.response == Http.Response(500, Http.Message(Http.InternalError))
    ensures x.response.status == 200 ==>
              x.response.body == Http.LoginSuccess(sign(Auth.Claims(found.value.id, found.value.username)).value,
                                                   found.value.username)
    ensures x.response.status in {200, 400, 401, 500}
  {
    if !Js.Truthy(username) || !Js.Truthy(password) then
      Http.Reply(400, CredentialsRequired)
    else
      var calls := [Http.FindUser(username)];
      match found
      case Failed(_) => Http.Exchange(calls, Http.Response(500, Http.Message(Http.InternalError)))
      case Missing => Http.Exchange(calls, Http.Response(401, Http.Message(BadCredentials)))
      case Found(user) =>
        match check
        case CheckFailed => Http.Exchange(calls, Http.Response(500, Http.Message(Http.InternalError)))
        case PasswordDiffers => Http.Exchange(calls, Http.Response(401, Http.Message(BadCredentials)))
        case PasswordMatches =>
          match sign(Auth.Claims(user.id, user.username))
          case None => Http.Exchange(calls, Http.Response(500, Http.Message(Http.InternalError)))
          case Some(token) => Http.Exchange(calls, Http.Response(200, Http.LoginSuccess(token, user.username)))
  }

  /** An unknown username and a known one with the wrong password get the
      same response, so the login route does not reveal which usernames exist. */
  lemma LoginHidesUnknownUsers(username: Js.JsValue, password: Js.JsValue, user: User,
                               check: PasswordCheck, sign: Auth.Claims -> Option<string>)
    ensures Login(username, password, Http.Missing, check, sign)
         == Login(username, password, Http.Found(user), PasswordDiffers, sign)
    ensures Js.Truthy(username) && Js.Truthy(password) ==>
              Login(username, password, Http.Missing, check, sign).response
              == Http.Response(401, Http.Message(BadCredentials))
  {
  }

  // ------------------------------------------------------- FCM registration

  const FcmTokenRequired := "Token FCM requerido"
  const FcmTokenRegistered := "Token FCM registrado exitosamente"

  /** `POST /api/register-token`, after authentication: `update` answers
      `User.findByIdAndUpdate(req.user.id, { fcmToken })`. */
  function RegisterFcmToken(user: Auth.Claims, fcmToken: Js.JsValue, update: Http.StoreResult<User>)
    : (x: Http.Exchange)
    ensures !Js.Truthy(fcmToken) <==> x == Http.Reply(400, FcmTokenRequired)
    ensures Js.Truthy(fcmToken) ==> x.calls == [Http.SetFcmToken(user.id, fcmToken)]
    ensures Js.Truthy(fcmToken) ==>
              x.response == (if update.Failed? then Http.Response(500, Http.Message(Http.InternalError))
                             else Http.Response(200, Http.Message(FcmTokenRegistered)))
    ensures x.response.status in {200, 400, 500}
  {
    if !Js.Truthy(fcmToken) then Http.Reply(400, FcmTokenRequired)
    else
      var calls := [Http.SetFcmToken(user.id, fcmToken)];
      if update.Failed? then Http.Exchange(calls, Http.Response(500, Http.Message(Http.InternalError)))
      else Http.Exchange(calls, Http.Response(200, Http.Message(FcmTokenRegistered)))
  }

  // ------------------------------------------------------------ middleware

  /** A route declared as `app.<verb>(path, auth, handler)`: the handler runs
      only with a verified payload; otherwise the 401 goes out and no store
      operation happens. */
  function WithAuth(header: Option<string>, verify: string -> Option<Auth.Claims>,
                    handler: Auth.Claims -> Http.Exchange): (x: Http.Exchange)
    ensures Auth.Authenticate(header, verify).Next? ==>
              x == handler(Auth.Authenticate(header, verify).user)
    ensures Auth.Authenticate(header, verify).Stop? ==>
              x.calls == [] && x.response.status == 401
  {
    match Auth.Authenticate(header, verify)
    case Next(user) => handler(user)
    case Stop(response) => Http.Exchange([], response)
  }

  // --------------------------------------------------------- order creation

  /** The fields `POST /api/pedidos` destructures from the JSON body;
      `Undefined` for each one the body lacks. */
  datatype OrderRequest = OrderRequest(
    customer: Js.JsValue,
    quantity: Js.JsValue,
    package: Js.JsValue,
    liquidos: Js.JsValue,
    frutas: Js.JsValue,
    toppings: Js.JsValue,
    extras: Js.JsValue,
    delivery: Js.JsValue,
    punto: Js.JsValue,
    vestimenta: Js.JsValue,
    phone: Js.JsValue,
    total: Js.JsValue)

  /** The object the handler builds and passes to `new Order(...)`. */
  datatype OrderData = OrderData(
    customer: string,
    quantity: int,
    package: string,
    liquidos: seq<Js.JsValue>,
    frutas: seq<Js.JsValue>,
    toppings: seq<Js.JsValue>,
    extras: string,
    delivery: string,
    punto: string,
    vestimenta: string,
    phone: string,
    total: real,
    status: string)

  const RequiredFields := "Campos requeridos: customer, quantity, package, phone, total"

  /** The presence check: every required field is truthy. */
  predicate HasRequired(b: OrderRequest) {
    && Js.Truthy(b.customer) && Js.Truthy(b.quantity) && Js.Truthy(b.package)
    && Js.Truthy(b.phone) && Js.Truthy(b.total)
  }

  /** `x.toString().trim()`. */
  function TrimmedText(v: Js.JsValue, rt: Js.Runtime): (s: string)
    ensures Text.IsTrimmed(s)
  {
    Text.Trim(Js.ToText(v, rt))
  }

  /** `const { x = d } = body` followed by `x ? x.toString().trim() : d`. */
  function TextOr(v: Js.JsValue, d: string, rt: Js.Runtime): (s: string)
    requires Text.IsTrimmed(d)
    ensures Text.IsTrimmed(s)
    ensures !Js.Truthy(v) ==> s == d
    ensures Js.Truthy(v) ==> s == TrimmedText(v, rt)
  {
    var x := Js.OrDefault(v, Js.Str(d));
    if Js.Truthy(x) then
      Text.TrimTrimmed(d);
      TrimmedText(x, rt)
    else d
  }

  /** `Array.isArray(v) ? v : []`. */
  function ArrayOrEmpty(v: Js.JsValue): (xs: seq<Js.JsValue>)
    ensures Js.IsArray(v) ==> xs == v.items
    ensures !Js.IsArray(v) ==> xs == []
  {
    if Js.IsArray(v) then v.items else []
  }

  predicate NormalizedText(p: OrderData) {
    && Text.IsTrimmed(p.customer) && Text.IsTrimmed(p.package) && Text.IsTrimmed(p.extras)
    && Text.IsTrimmed(p.delivery) && Text.IsTrimmed(p.punto) && Text.IsTrimmed(p.vestimenta)
    && Text.IsTrimmed(p.phone)
  }

  /** Building `pedidoData` once the presence check has passed, destructuring
      defaults included. */
  function Normalize(b: OrderRequest, rt: Js.Runtime): (p: OrderData)
    requires HasRequired(b)
    ensures p.status == "Pendiente"
    ensures NormalizedText(p)
    ensures p.customer == TrimmedText(b.customer, rt)
    ensures p.package == TrimmedText(b.package, rt)
    ensures p.phone == TrimmedText(b.phone, rt)
    ensures Js.Truthy(b.delivery) ==> p.delivery == TrimmedText(b.delivery, rt)
    ensures Js.Truthy(b.extras) ==> p.extras == TrimmedText(b.extras, rt)
    ensures Js.Truthy(b.punto) ==> p.punto == TrimmedText(b.punto, rt)
    ensures Js.Truthy(b.vestimenta) ==> p.vestimenta == TrimmedText(b.vestimenta, rt)
    ensures p.liquidos == (if b.liquidos.Arr? then b.liquidos.items else [])
    ensures p.frutas == (if b.frutas.Arr? then b.frutas.items else [])
    ensures p.toppings == (if b.toppings.Arr? then b.toppings.items else [])
    ensures !Js.Truthy(b.delivery) ==> p.delivery == "recoger"
    ensures !Js.Truthy(b.extras) ==> p.extras == ""
    ensures !Js.Truthy(b.punto) ==> p.punto == ""
    ensures p.quantity == Js.ParseIntOrZero(b.quantity, rt)
    ensures p.total == Js.ParseFloatOrZero(b.total, rt)
  {
    var liquidos := Js.OrDefault(b.liquidos, Js.Arr([]));
    var frutas := Js.OrDefault(b.frutas, Js.Arr([]));
    var toppings := Js.OrDefault(b.toppings, Js.Arr([]));
    OrderData(
      customer := TrimmedText(b.customer, rt),
      quantity := Js.ParseIntOrZero(b.quantity, rt),
      package := TrimmedText(b.package, rt),
      liquidos := ArrayOrEmpty(liquidos),
      frutas := ArrayOrEmpty(frutas),
      toppings := ArrayOrEmpty(toppings),
      extras := TextOr(b.extras, "", rt),
      delivery := TextOr(b.delivery, "recoger", rt),
      punto := TextOr(b.punto, "", rt),
      vestimenta := TextOr(b.vestimenta, "", rt),
      phone := TrimmedText(b.phone, rt),
      total := Js.ParseFloatOrZero(b.total, rt),
      status := "Pendiente")
  }

  /** Casting an array element to a String path: strings stay, numbers and
      booleans are converted, anything else fails. */
  function CastElement(v: Js.JsValue, rt: Js.Runtime): (r: Option<string>)
    ensures r.None? <==> v.Undefined? || v.Null? || v.Arr?
    ensures v.Str? ==> r == Some(v.s)
    ensures v.Num? || v.Bool? ==> r == Some(Js.ToText(v, rt))
  {
    match v
    case Str(s) => Some(s)
    case Num(_) => Some(Js.ToText(v, rt))
    case Bool(_) => Some(Js.ToText(v, rt))
    case _ => None
  }

  predicate AllCast(items: seq<Js.JsValue>) {
    forall i :: 0 <= i < |items| ==> !(items[i].Undefined? || items[i].Null? || items[i].Arr?)
  }

  /** Casting an array to an array-of-String path: the cast elements, or
      `None` when some element cannot be cast. */
  function CastList(items: seq<Js.JsValue>, rt: Js.Runtime): (r: Option<seq<string>>)
    ensures r.Some? <==> AllCast(items)
    ensures r.Some? ==> |r.value| == |items|
    ensures r.Some? ==> forall i :: 0 <= i < |items| ==> Some(r.value[i]) == CastElement(items[i], rt)
    decreases |items|
  {
    if |items| == 0 then Some([])
    else
      match (CastElement(items[0], rt), CastList(items[1..], rt))
      case (Some(x), Some(xs)) =>
        assert forall i :: 1 <= i < |items| ==> items[i] == items[1..][i - 1];
        Some([x] + xs)
      case (_, _) =>
        assert !AllCast(items[1..]) ==> !AllCast(items) by {
          if !AllCast(items[1..]) {
            var i :| 0 <= i < |items[1..]| && (items[1..][i].Undefined? || items[1..][i].Null? || items[1..][i].Arr?);
            assert items[i + 1] == items[1..][i];
          }
        }
        None
  }

  /** What `new Order(pedidoData)` is given, path by path: `vestimenta` is not
      a schema path and is dropped; `extras`, a string, is cast to the
      array path as a one-element array; an array that cannot be cast is
      left unset and reported. */
  function ToDocument(p: OrderData, rt: Js.Runtime): (r: (OrderModel.OrderDoc, seq<Schema.FieldError>))
    ensures r.0.customer == Some(p.customer) && r.0.package == Some(p.package)
    ensures r.0.phone == Some(p.phone)
    ensures r.0.delivery == Some(p.delivery) && r.0.punto == Some(p.punto)
    ensures r.0.notas.None? && r.0.dia.None? && r.0.hora.None? && r.0.createdAt.None?
    ensures r.0.liquidos == CastList(p.liquidos, rt) && r.0.frutas == CastList(p.frutas, rt)
    ensures r.0.toppings == CastList(p.toppings, rt)
    ensures r.0.extras == Some([p.extras])
    ensures r.0.status == Some(p.status)
    ensures r.0.quantity == Some(p.quantity as real) && r.0.total == Some(p.total)
    ensures r.1 == [] <==> AllCast(p.liquidos) && AllCast(p.frutas) && AllCast(p.toppings)
  {
    var liquidos := CastList(p.liquidos, rt);
    var frutas := CastList(p.frutas, rt);
    var toppings := CastList(p.toppings, rt);
    var errs := (if liquidos.None? then [Schema.CastFailed("liquidos")] else [])
              + (if frutas.None? then [Schema.CastFailed("frutas")] else [])
              + (if toppings.None? then [Schema.CastFailed("toppings")] else []);
    var doc := OrderModel.OrderDoc(
      customer := Some(p.customer),
      quantity := Some(p.quantity as real),
      package := Some(p.package),
      liquidos := liquidos,
      frutas := frutas,
      toppings := toppings,
      extras := Some([p.extras]),
      notas := None,
      delivery := Some(p.delivery),
      punto := Some(p.punto),
      dia := None,
      hora := None,
      phone := Some(p.phone),
      total := Some(p.total),
      status := Some(p.status),
      createdAt := None);
    (doc, errs)
  }

  /** `vestimenta` is built but never reaches the document. */
  lemma VestimentaDropped(p: OrderData, rt: Js.Runtime, v: string)
    ensures ToDocument(p.(vestimenta := v), rt) == ToDocument(p, rt)
  {
  }

  /** The document `new Order(pedidoData)` builds, with the cast and
      validation errors `save()` would report for it. */
  function Prepare(rt: Js.Runtime, req: OrderRequest, now: int): (r: (OrderModel.OrderDoc, seq<Schema.FieldError>))
    requires HasRequired(req)
    ensures r.1 == [] ==> OrderModel.Conforms(r.0)
    ensures OrderModel.TrimmedPaths(r.0) && OrderModel.Defaulted(r.0)
    ensures r.0.status == Some("Pendiente")
    ensures r.0.quantity == Some(Js.ParseIntOrZero(req.quantity, rt) as real)
    ensures r.0.delivery == Some(Normalize(req, rt).delivery)
    ensures forall e :: e in OrderModel.Validate(r.0) ==> e in r.1
  {
    var p := Normalize(req, rt);
    var cast := ToDocument(p, rt);
    var doc := OrderModel.Create(cast.0, now);
    assert doc.status == cast.0.status && doc.delivery == cast.0.delivery;
    var errors := cast.1 + OrderModel.Validate(doc);
    OrderModel.ValidateIff(doc);
    (doc, errors)
  }

  /** `save()` rejects exactly the orders with an element that cannot be cast
      to a string or a path whose validator fails; every other prepared
      order is accepted. */
  lemma {:induction false} PrepareErrorsIff(rt: Js.Runtime, req: OrderRequest, now: int)
    requires HasRequired(req)
    ensures var p := Normalize(req, rt);
            Prepare(rt, req, now).1 == [] <==>
              && AllCast(p.liquidos) && AllCast(p.frutas) && AllCast(p.toppings)
              && OrderModel.Conforms(Prepare(rt, req, now).0)
  {
    var p := Normalize(req, rt);
    var cast := ToDocument(p, rt);
    var doc := OrderModel.Create(cast.0, now);
    OrderModel.ValidateIff(doc);
    assert Prepare(rt, req, now) == (doc, cast.1 + OrderModel.Validate(doc));
  }

  /** The prepared document carries the request's own values: the trimmed
      text of customer, package and phone, and the parsed total. */
  lemma {:induction false} PreparedFromRequest(rt: Js.Runtime, req: OrderRequest, now: int)
    requires HasRequired(req)
    ensures Prepare(rt, req, now).0.customer == Some(TrimmedText(req.customer, rt))
    ensures Prepare(rt, req, now).0.package == Some(TrimmedText(req.package, rt))
    ensures Prepare(rt, req, now).0.phone == Some(TrimmedText(req.phone, rt))
    ensures Prepare(rt, req, now).0.total == Some(Js.ParseFloatOrZero(req.total, rt))
  {
    var p := Normalize(req, rt);
    var raw := ToDocument(p, rt).0;
    var trimmed := OrderModel.ApplyTrim(raw);
    assert trimmed.customer == raw.customer by { Text.TrimTrimmed(p.customer); }
    assert trimmed.phone == raw.phone by { Text.TrimTrimmed(p.phone); }
    assert Prepare(rt, req, now).0 == OrderModel.ApplyDefaults(trimmed, now);
  }

  /** `POST /api/pedidos`. `now` is the creation time, `saveFault` the
      message of an error the store throws on insert (`None` when the insert
      succeeds). Mongoose validates before inserting, so an invalid document
      never reaches the store. */
  function CreateOrder(rt: Js.Runtime, req: OrderRequest, now: int, saveFault: Option<string>)
    : (x: Http.Exchange)
    ensures !HasRequired(req) <==> x == Http.Reply(400, RequiredFields)
    ensures HasRequired(req) && Prepare(rt, req, now).1 != [] ==>
              x == Http.Exchange([], Http.Response(400, Http.ValidationFailure(Prepare(rt, req, now).1)))
    ensures HasRequired(req) && Prepare(rt, req, now).1 == [] ==>
              && x.calls == [Http.InsertOrder(Prepare(rt, req, now).0)]
              && (saveFault.Some? ==>
                    x.response == Http.Response(500, Http.Message(Http.InternalError + ": " + saveFault.value)))
    ensures x.calls == [] || |x.calls| == 1
    ensures x.calls != [] ==>
              && x.calls[0].InsertOrder?
              && OrderModel.Conforms(x.calls[0].doc)
              && OrderModel.TrimmedPaths(x.calls[0].doc)
              && x.calls[0].doc.status == Some("Pendiente")
    ensures x.response.status == 201 <==> x.calls != [] && saveFault.None?
    ensures x.response.status == 201 ==> x.response.body == Http.OrderSaved(x.calls[0].doc)
    ensures x.response.status in {201, 400, 500}
  {
    if !HasRequired(req) then Http.Reply(400, RequiredFields)
    else
      var r := Prepare(rt, req, now);
      var x := Save(r.0, r.1, saveFault);
      assert x.calls != [] ==> r.1 == [] && OrderModel.Conforms(r.0);
      x
  }

  /** `await nuevoPedido.save()` and the response to it: validation errors
      reject the document before the store sees it; otherwise it is inserted
      and the store's answer decides between 201 and 500. */
  function Save(doc: OrderModel.OrderDoc, errors: seq<Schema.FieldError>, saveFault: Option<string>)
    : (x: Http.Exchange)
    ensures errors != [] ==> x == Http.Exchange([], Http.Response(400, Http.ValidationFailure(errors)))
    ensures errors == [] ==> x.calls == [Http.InsertOrder(doc)]
    ensures errors == [] && saveFault.None? ==> x.response == Http.Response(201, Http.OrderSaved(doc))
    ensures errors == [] && saveFault.Some? ==>
              x.response == Http.Response(500, Http.Message(Http.InternalError + ": " + saveFault.value))
    ensures x.response.status == 201 <==> errors == [] && saveFault.None?
    ensures x.response.status in {201, 400, 500}
  {
    if errors != [] then
      Http.Exchange([], Http.Response(400, Http.ValidationFailure(errors)))
    else
      var calls := [Http.InsertOrder(doc)];
      match saveFault
      case None => Http.Exchange(calls, Http.Response(201, Http.OrderSaved(doc)))
      case Some(m) => Http.Exchange(calls, Http.Response(500, Http.Message(Http.InternalError + ": " + m)))
  }

  // ----------------------------------------------------------- status update

  /** The values the status-update handler accepts. */
  const UpdatableStatuses: seq<string> := ["Pendiente", "Preparando", "Listo", "Entregado", "Cancelado"]

  const InvalidStatus := "Estado inválido"
  const OrderNotFound := "Pedido no encontrado"

  /** `[...].includes(status)`: only a string equal to a listed value. */
  predicate Accepted(status: Js.JsValue) {
    status.Str? && Text.IndexOf(UpdatableStatuses, status.s) != -1
  }

  /** `PATCH /api/pedidos/:id`, after authentication. `stored` is the order
      the store holds under `id` before the update. `findByIdAndUpdate` sets
      the status and returns the updated order without running the schema's
      validators. */
  function UpdateStatus(id: string, status: Js.JsValue, stored: Http.StoreResult<OrderModel.OrderDoc>)
    : (x: Http.Exchange)
    ensures !(status.Str? && status.s in UpdatableStatuses) <==> x == Http.Reply(400, InvalidStatus)
    ensures status.Str? && status.s in UpdatableStatuses ==>
              && x.calls == [Http.SetStatus(id, status.s)]
              && (stored.Missing? ==> x.response == Http.Response(404, Http.Message(OrderNotFound)))
              && (stored.Failed? ==> x.response == Http.Response(500, Http.Message(Http.InternalError)))
              && (stored.Found? ==>
                    x.response == Http.Response(200, Http.StatusChanged(stored.value.(status := Some(status.s)))))
    ensures x.response.status in {200, 400, 404, 500}
  {
    if !Accepted(status) then Http.Reply(400, InvalidStatus)
    else
      var calls := [Http.SetStatus(id, status.s)];
      match stored
      case Failed(_) => Http.Exchange(calls, Http.Response(500, Http.Message(Http.InternalError)))
      case Missing => Http.Exchange(calls, Http.Response(404, Http.Message(OrderNotFound)))
      case Found(doc) => Http.Exchange(calls, Http.Response(200, Http.StatusChanged(doc.(status := Some(status.s)))))
  }
}

=== FILE: http.dfy ===
/** What a request handler hands back: the store operations it issued, in
    order, and the JSON response it sent. Store operations are recorded rather
    than performed, so "nothing reaches the store" is `calls == []`. */
module Http {
  import Js
  import Schema
  import OrderModel

  datatype Body =
    | Message(text: string)
    /** `'Error de validación: '` followed by the messages Mongoose gives
        these errors, joined by `', '`. */
    | ValidationFailure(errors: seq<Schema.FieldError>)
    /** `{ message: 'Login exitoso', token, user: { username } }`. */
    | LoginSuccess(token: string, username: string)
    /** `{ message: '✅ Pedido recibido exitosamente', pedido }`. */
    | OrderSaved(order: OrderModel.OrderDoc)
    /** `{ message: '✅ Estado actualizado', pedido }`. */
    | StatusChanged(order: OrderModel.OrderDoc)
    /** The empty body of a successful CORS preflight. */
    | NoContent

  datatype Response = Response(status: int, body: Body)

  datatype StoreCall =
    | FindUser(username: Js.JsValue)
    | SetFcmToken(userId: string, token: Js.JsValue)
    | InsertOrder(doc: OrderModel.OrderDoc)
    | SetStatus(id: string, newStatus: string)

  datatype Exchange = Exchange(calls: seq<StoreCall>, response: Response)

  /** The answer to a store query or write, supplied by the caller: the
      document found, no document, or a thrown error with its message. */
  datatype StoreResult<T> = Found(value: T) | Missing | Failed(reason: string)

  const InternalError := "Error interno del servidor"

  /** A response sent before any store operation. */
  function Reply(status: int, text: string): (x: Exchange)
    ensures x.calls == [] && x.response.status == status
  {
    Exchange([], Response(status, Message(text)))
  }
}

=== FILE: ingredient_model.dfy ===
/** `IngredientSchema`: its `trim` setter, defaults, validators and the
    pre-save hook that refreshes `updatedAt`. Times are milliseconds, the
    value `Date.now()` returns, passed in as `now`. */
module IngredientModel {
  import opened Wrappers
  import Text
  import Schema

  const Categories: seq<string> := ["liquidos", "frutas", "toppings", "extras"]

  datatype IngredientDoc = IngredientDoc(
    name: Option<string>,
    category: Option<string>,
    price: Option<real>,
    available: Option<bool>,
    hasExtraCost: Option<bool>,
    order: Option<real>,
    createdAt: Option<int>,
    updatedAt: Option<int>)

  /** The `trim: true` setter of `name`, the schema's only trimmed path. */
  function ApplyTrim(d: IngredientDoc): (r: IngredientDoc)
    ensures r.name == Schema.TrimSetter(d.name)
    ensures Schema.TrimmedOpt(r.name)
    ensures r.name.Some? <==> d.name.Some?
    ensures r.(name := d.name) == d
  {
    d.(name := Schema.TrimSetter(d.name))
  }

  predicate Defaulted(d: IngredientDoc) {
    && d.price.Some? && d.available.Some? && d.hasExtraCost.Some?
    && d.order.Some? && d.createdAt.Some? && d.updatedAt.Some?
  }

  /** The `default` options: price 0, available, no extra cost, position 0,
      both timestamps `now`; a present value is never replaced. */
  function ApplyDefaults(d: IngredientDoc, now: int): (r: IngredientDoc)
    ensures Defaulted(r)
    ensures r.name == d.name && r.category == d.category
    ensures r.price == (if d.price.Some? then d.price else Some(0.0))
    ensures r.available == (if d.available.Some? then d.available else Some(true))
    ensures r.hasExtraCost == (if d.hasExtraCost.Some? then d.hasExtraCost else Some(false))
    ensures r.order == (if d.order.Some? then d.order else Some(0.0))
    ensures r.createdAt == (if d.createdAt.Some? then d.createdAt else Some(now))
    ensures r.updatedAt == (if d.updatedAt.Some? then d.updatedAt else Some(now))
  {
    d.(price := Schema.Fill(d.price, 0.0),
       available := Schema.Fill(d.available, true),
       hasExtraCost := Schema.Fill(d.hasExtraCost, false),
       order := Schema.Fill(d.order, 0.0),
       createdAt := Schema.Fill(d.createdAt, now),
       updatedAt := Schema.Fill(d.updatedAt, now))
  }

  /** `new Ingredient(data)`. */
  function Create(d: IngredientDoc, now: int): (r: IngredientDoc)
    ensures Schema.TrimmedOpt(r.name) && Defaulted(r)
    ensures d.name.Some? ==> r.name == Some(Text.Trim(d.name.value))
    ensures r.category == d.category
    ensures r.price == (if d.price.Some? then d.price else Some(0.0))
    ensures r.available == (if d.available.Some? then d.available else Some(true))
    ensures r.hasExtraCost == (if d.hasExtraCost.Some? then d.hasExtraCost else Some(false))
    ensures r.order == (if d.order.Some? then d.order else Some(0.0))
    ensures r.createdAt == (if d.createdAt.Some? then d.createdAt else Some(now))
    ensures r.updatedAt == (if d.updatedAt.Some? then d.updatedAt else Some(now))
  {
    ApplyDefaults(ApplyTrim(d), now)
  }

  /** The schema's validators, path by path. */
  predicate Conforms(d: IngredientDoc) {
    && d.name.Some? && d.name.value != ""
    && d.category.Some? && d.category.value in Categories
    && (d.price.Some? ==> d.price.value >= 0.0)
  }

  function Validate(d: IngredientDoc): (errs: seq<Schema.FieldError>)
    ensures |errs| <= 3
    ensures forall e :: e in errs ==> e.path in {"name", "category", "price"}
  {
    Schema.CheckString("name", d.name, true, None)
    + Schema.CheckString("category", d.category, true, Some(Categories))
    + Schema.CheckNumber("price", d.price, false, Some(0.0))
  }

  lemma ValidateIff(d: IngredientDoc)
    ensures Validate(d) == [] <==> Conforms(d)
  {
  }

  /** The pre-save hook: `this.updatedAt = Date.now()`. */
  function PreSave(d: IngredientDoc, now: int): (r: IngredientDoc)
    ensures r.updatedAt == Some(now)
    ensures r.name == d.name && r.category == d.category && r.price == d.price
    ensures r.available == d.available && r.hasExtraCost == d.hasExtraCost
    ensures r.order == d.order && r.createdAt == d.createdAt
  {
    d.(updatedAt := Some(now))
  }

  /** The hook does not change what validation reports, and a second save
      only moves the timestamp again. */
  lemma PreSaveKeepsValidity(d: IngredientDoc, now: int, later: int)
    ensures Validate(PreSave(d, now)) == Validate(d)
    ensures PreSave(PreSave(d, now), later) == PreSave(d, later)
  {
  }

  /** A saved new ingredient: every defaulted path is filled, and its
      `updatedAt` is the save time even when the data supplied another. */
  lemma SavedIngredient(d: IngredientDoc, created: int, saved: int)
    ensures Defaulted(PreSave(Create(d, created), saved))
    ensures PreSave(Create(d, created), saved).updatedAt == Some(saved)
    ensures d.category.Some? ==> PreSave(Create(d, created), saved).category == d.category
  {
  }

  /** Creating twice is creating once: the setter leaves a trimmed name
      alone and the defaults do not refill present paths. */
  lemma CreateIdempotent(d: IngredientDoc, now: int, later: int)
    ensures Create(Create(d, now), later) == Create(d, now)
  {
    var c := Create(d, now);
    Text.TrimTrimmed(c.name.GetOr(""));
  }
}

=== FILE: js.dfy ===
/** The JavaScript values a JSON request body can carry, with the language's
    truthiness and string conversion. Number formatting and number parsing are
    host behaviour the model does not re-implement: they arrive as the oracles
    of a `Runtime`. */
module Js {
  import opened Wrappers

  /** A field of a parsed JSON body; `Undefined` is an absent field. Numbers
      are reals: NaN, the infinities and -0 are not modelled. */
  datatype JsValue =
    | Undefined
    | Null
    | Bool(b: bool)
    | Num(n: real)
    | Str(s: string)
    | Arr(items: seq<JsValue>)

  /** Host number conversions: `String(n)` for a number, and `parseInt` /
      `parseFloat` applied to a string, where `None` stands for NaN. */
  datatype Runtime = Runtime(
    numberText: real -> string,
    parseIntText: string -> Option<int>,
    parseFloatText: string -> Option<real>)

  /** JavaScript's ToBoolean: `undefined`, `null`, `false`, `0` and `""` are
      falsy; every array, even an empty one, is truthy. */
  predicate Truthy(v: JsValue) {
    match v
    case Undefined => false
    case Null => false
    case Bool(b) => b
    case Num(n) => n != 0.0
    case Str(s) => |s| > 0
    case Arr(_) => true
  }

  /** `Array.isArray`. */
  predicate IsArray(v: JsValue) {
    v.Arr?
  }

  /** `String(v)`; for a truthy value this is also `v.toString()`. An array
      becomes its elements joined by commas, with `null` and `undefined`
      elements written as the empty string. */
  function ToText(v: JsValue, rt: Runtime): (r: string)
    ensures v.Str? ==> r == v.s
    decreases v
  {
    match v
    case Undefined => "undefined"
    case Null => "null"
    case Bool(b) => if b then "true" else "false"
    case Num(n) => rt.numberText(n)
    case Str(s) => s
    case Arr(items) => ItemsText(items, rt)
  }

  /** `Array.prototype.join(',')` as `String` applies it to an array. */
  function ItemsText(items: seq<JsValue>, rt: Runtime): string
    decreases items
  {
    if |items| == 0 then ""
    else
      var first := if items[0].Undefined? || items[0].Null? then "" else ToText(items[0], rt);
      if |items| == 1 then first else first + "," + ItemsText(items[1..], rt)
  }

  /** `parseInt(v) || 0`: the parsed integer, or 0 when parsing yields NaN. */
  function ParseIntOrZero(v: JsValue, rt: Runtime): (r: int)
    ensures rt.parseIntText(ToText(v, rt)).None? ==> r == 0
    ensures rt.parseIntText(ToText(v, rt)).Some? ==> r == rt.parseIntText(ToText(v, rt)).value
  {
    rt.parseIntText(ToText(v, rt)).GetOr(0)
  }

  /** `parseFloat(v) || 0`. */
  function ParseFloatOrZero(v: JsValue, rt: Runtime): (r: real)
    ensures rt.parseFloatText(ToText(v, rt)).None? ==> r == 0.0
    ensures rt.parseFloatText(ToText(v, rt)).Some? ==> r == rt.parseFloatText(ToText(v, rt)).value
  {
    rt.parseFloatText(ToText(v, rt)).GetOr(0.0)
  }

  /** A destructuring default `{ x = d } = body`: applies only to `undefined`. */
  function OrDefault(v: JsValue, d: JsValue): (r: JsValue)
    ensures v.Undefined? ==> r == d
    ensures !v.Undefined? ==> r == v
  {
    if v.Undefined? then d else v
  }
}

=== FILE: mismatches.dfy ===
/** Places where the route handlers and the order schema disagree, stated as
    properties of the model rather than repaired. */
module Mismatches {
  import opened Wrappers
  import Text
  import Js
  import Schema
  import OrderModel
  import Http
  import Handlers

  /** The status-update handler accepts exactly two values the schema's
      enum does not list. */
  lemma StatusListsDiffer(s: string)
    ensures s in Handlers.UpdatableStatuses && s !in OrderModel.Statuses <==>
              s == "Preparando" || s == "Listo"
    ensures s in OrderModel.Statuses ==> s in Handlers.UpdatableStatuses
  {
  }

  /** `findByIdAndUpdate` runs no validators, so moving a valid order to
      'Preparando' succeeds and leaves a stored order the schema rejects. */
  lemma PreparandoBreaksSchema(id: string, doc: OrderModel.OrderDoc)
    requires OrderModel.Conforms(doc)
    ensures var x := Handlers.UpdateStatus(id, Js.Str("Preparando"), Http.Found(doc));
            && x.response.status == 200
            && x.response.body.StatusChanged?
            && !OrderModel.Conforms(x.response.body.order)
            && Schema.NotInEnum("status", "Preparando") in OrderModel.Validate(x.response.body.order)
  {
    var x := Handlers.UpdateStatus(id, Js.Str("Preparando"), Http.Found(doc));
    assert "Preparando" == Handlers.UpdatableStatuses[1];
    OrderModel.StatusOutsideEnum(x.response.body.order);
    OrderModel.ValidateIff(x.response.body.order);
  }

  /** A truthy quantity passes the presence check, but when `parseInt` makes
      it less than 1 (0 for text that is not a number) the schema minimum
      rejects the order with a 400 and nothing is stored. */
  lemma {:induction false} LowQuantityRejected(rt: Js.Runtime, req: Handlers.OrderRequest, now: int,
                                              saveFault: Option<string>)
    requires Handlers.HasRequired(req)
    requires Js.ParseIntOrZero(req.quantity, rt) < 1
    ensures var x := Handlers.CreateOrder(rt, req, now, saveFault);
            && x.calls == []
            && x.response.status == 400
            && x.response.body.ValidationFailure?
            && Schema.BelowMin("quantity", Js.ParseIntOrZero(req.quantity, rt) as real, 1.0)
                 in x.response.body.errors
  {
    var p := Handlers.Normalize(req, rt);
    var (raw, castErrors) := Handlers.ToDocument(p, rt);
    var doc := OrderModel.Create(raw, now);
    assert doc.quantity == Some(p.quantity as real);
    OrderModel.QuantityBelowMinimum(doc);
    var errors := castErrors + OrderModel.Validate(doc);
    assert Schema.BelowMin("quantity", p.quantity as real, 1.0) in errors;
  }

  /** The special case of a quantity that is not a number. */
  lemma NonNumericQuantityRejected(rt: Js.Runtime, req: Handlers.OrderRequest, now: int,
                                   saveFault: Option<string>)
    requires Handlers.HasRequired(req)
    requires rt.parseIntText(Js.ToText(req.quantity, rt)).None?
    ensures var x := Handlers.CreateOrder(rt, req, now, saveFault);
            && x.calls == [] && x.response.status == 400
            && x.response.body.ValidationFailure?
            && Schema.BelowMin("quantity", 0.0, 1.0) in x.response.body.errors
  {
    LowQuantityRejected(rt, req, now, saveFault);
  }

  /** The handler builds `extras` as one string while the schema declares an
      array of strings: a stored order's `extras` is always a one-element
      array holding the trimmed text, whatever list the client sent. */
  lemma {:induction false} ExtrasStoredAsOneString(rt: Js.Runtime, req: Handlers.OrderRequest, now: int)
    requires Handlers.HasRequired(req)
    ensures Handlers.Prepare(rt, req, now).0.extras == Some([Handlers.TextOr(req.extras, "", rt)])
  {
    var p := Handlers.Normalize(req, rt);
    var raw := Handlers.ToDocument(p, rt).0;
    assert p.extras == Handlers.TextOr(req.extras, "", rt);
    TrimmedExtrasKept(raw, p.extras, now);
    assert Handlers.Prepare(rt, req, now).0 == OrderModel.Create(raw, now);
  }

  /** A single already trimmed `extras` entry survives the setters and defaults. */
  lemma TrimmedExtrasKept(raw: OrderModel.OrderDoc, e: string, now: int)
    requires raw.extras == Some([e]) && Text.IsTrimmed(e)
    ensures OrderModel.Create(raw, now).extras == Some([e])
  {
    assert Schema.TrimmedList(raw.extras);
    assert OrderModel.ApplyTrim(raw).extras == raw.extras;
  }

  /** For instance, the list `["a", "b"]` is stored as the single entry "a,b". */
  lemma ExtrasListFlattened(rt: Js.Runtime)
    ensures Handlers.TextOr(Js.Arr([Js.Str("a"), Js.Str("b")]), "", rt) == "a,b"
  {
    var items := [Js.Str("a"), Js.Str("b")];
    assert Js.ItemsText(items[1..], rt) == "b";
    assert Js.ItemsText(items, rt) == "a" + "," + "b";
    assert Js.ToText(Js.Arr(items), rt) == "a,b";
    assert Text.IsTrimmed("a,b");
    Text.TrimTrimmed("a,b");
  }

  /** A `delivery` of only spaces is truthy, so the handler keeps it; trimmed
      to "" it is outside the schema's enum, and the order is rejected where
      an empty `delivery` would have defaulted to 'recoger'. */
  lemma BlankDeliveryRejected(rt: Js.Runtime, req: Handlers.OrderRequest, now: int,
                              saveFault: Option<string>)
    requires Handlers.HasRequired(req)
    requires req.delivery == Js.Str("  ")
    ensures var x := Handlers.CreateOrder(rt, req, now, saveFault);
            && x.calls == [] && x.response.status == 400
            && x.response.body.ValidationFailure?
            && Schema.NotInEnum("delivery", "") in x.response.body.errors
  {
    BlankDeliveryInvalid(rt, req, now);
  }

  lemma BlankDeliveryInvalid(rt: Js.Runtime, req: Handlers.OrderRequest, now: int)
    requires Handlers.HasRequired(req)
    requires req.delivery == Js.Str("  ")
    ensures Schema.NotInEnum("delivery", "") in Handlers.Prepare(rt, req, now).1
  {
    BlankDeliveryKept(rt, req);
    var r := Handlers.Prepare(rt, req, now);
    EmptyDeliveryReported(r.0, r.1);
  }

  lemma EmptyDeliveryReported(doc: OrderModel.OrderDoc, errors: seq<Schema.FieldError>)
    requires doc.delivery == Some("")
    requires forall e :: e in OrderModel.Validate(doc) ==> e in errors
    ensures Schema.NotInEnum("delivery", "") in errors
  {
    assert "" !in OrderModel.DeliveryModes;
    OrderModel.DeliveryOutsideEnum(doc);
  }

  /** Only-space text is truthy, and trimming it leaves "". */
  lemma BlankDeliveryKept(rt: Js.Runtime, req: Handlers.OrderRequest)
    requires Handlers.HasRequired(req)
    requires req.delivery == Js.Str("  ")
    ensures Handlers.Normalize(req, rt).delivery == ""
  {
    Text.TrimUnique("  ", "", "");
    assert "  " + "" + "" == "  ";
  }
}

=== FILE: order_model.dfy ===
/** `OrderSchema`: the stored shape of an order, its `trim` setters, its
    defaults and its validators. An absent path is `None`; Mongoose gives
    every array path the empty array as its default. */
module OrderModel {
  import opened Wrappers
  import Text
  import Schema

  const Packages: seq<string> := ["Fitness", "Chocolate", "Lechera", "Fresita", "Gansito", "personalizado"]
  const DeliveryModes: seq<string> := ["recoger", "punto"]
  const Statuses: seq<string> := ["Pendiente", "Entregado", "Cancelado"]

  const DefaultPackage := "Chocolate"
  const DefaultDelivery := "recoger"
  const DefaultStatus := "Pendiente"

  datatype OrderDoc = OrderDoc(
    customer: Option<string>,
    quantity: Option<real>,
    package: Option<string>,
    liquidos: Option<seq<string>>,
    frutas: Option<seq<string>>,
    toppings: Option<seq<string>>,
    extras: Option<seq<string>>,
    notas: Option<string>,
    delivery: Option<string>,
    punto: Option<string>,
    dia: Option<string>,
    hora: Option<string>,
    phone: Option<string>,
    total: Option<real>,
    status: Option<string>,
    createdAt: Option<int>)

  /** The paths declared with `trim: true` hold no leading or trailing space.
      `package`, `delivery` and `status` are not among them. */
  predicate TrimmedPaths(d: OrderDoc) {
    && Schema.TrimmedOpt(d.customer)
    && Schema.TrimmedList(d.liquidos) && Schema.TrimmedList(d.frutas)
    && Schema.TrimmedList(d.toppings) && Schema.TrimmedList(d.extras)
    && Schema.TrimmedOpt(d.notas) && Schema.TrimmedOpt(d.punto)
    && Schema.TrimmedOpt(d.dia) && Schema.TrimmedOpt(d.hora)
    && Schema.TrimmedOpt(d.phone)
  }

  /** The `trim: true` setters, run when values are assigned to a document. */
  function ApplyTrim(d: OrderDoc): (r: OrderDoc)
    ensures TrimmedPaths(r)
    ensures r.customer == Schema.TrimSetter(d.customer) && r.phone == Schema.TrimSetter(d.phone)
    ensures r.notas == Schema.TrimSetter(d.notas) && r.punto == Schema.TrimSetter(d.punto)
    ensures r.dia == Schema.TrimSetter(d.dia) && r.hora == Schema.TrimSetter(d.hora)
    ensures r.liquidos == Schema.TrimList(d.liquidos) && r.frutas == Schema.TrimList(d.frutas)
    ensures r.toppings == Schema.TrimList(d.toppings) && r.extras == Schema.TrimList(d.extras)
    ensures r.package == d.package && r.delivery == d.delivery && r.status == d.status
    ensures r.quantity == d.quantity && r.total == d.total && r.createdAt == d.createdAt
    ensures TrimmedPaths(d) ==> r == d
  {
    d.(customer := Schema.TrimSetter(d.customer),
       liquidos := Schema.TrimList(d.liquidos),
       frutas := Schema.TrimList(d.frutas),
       toppings := Schema.TrimList(d.toppings),
       extras := Schema.TrimList(d.extras),
       notas := Schema.TrimSetter(d.notas),
       punto := Schema.TrimSetter(d.punto),
       dia := Schema.TrimSetter(d.dia),
       hora := Schema.TrimSetter(d.hora),
       phone := Schema.TrimSetter(d.phone))
  }

  /** Every path that declares a `default` has a value. */
  predicate Defaulted(d: OrderDoc) {
    && d.liquidos.Some? && d.frutas.Some? && d.toppings.Some? && d.extras.Some?
    && d.package.Some? && d.notas.Some? && d.delivery.Some? && d.punto.Some?
    && d.dia.Some? && d.hora.Some? && d.status.Some? && d.createdAt.Some?
  }

  /** The `default` options, with `now` standing for `Date.now`. A default
      only fills an absent path; a present value is never replaced. */
  function ApplyDefaults(d: OrderDoc, now: int): (r: OrderDoc)
    ensures Defaulted(r)
    ensures d.liquidos.None? ==> r.liquidos == Some([])
    ensures d.frutas.None? ==> r.frutas == Some([])
    ensures d.toppings.None? ==> r.toppings == Some([])
    ensures d.extras.None? ==> r.extras == Some([])
    ensures d.package.None? ==> r.package == Some(DefaultPackage)
    ensures d.notas.None? ==> r.notas == Some("")
    ensures d.delivery.None? ==> r.delivery == Some(DefaultDelivery)
    ensures d.punto.None? ==> r.punto == Some("")
    ensures d.dia.None? ==> r.dia == Some("")
    ensures d.hora.None? ==> r.hora == Some("")
    ensures d.status.None? ==> r.status == Some(DefaultStatus)
    ensures d.createdAt.None? ==> r.createdAt == Some(now)
    ensures Agrees(d, r)
  {
    d.(liquidos := Schema.Fill(d.liquidos, []),
       frutas := Schema.Fill(d.frutas, []),
       toppings := Schema.Fill(d.toppings, []),
       extras := Schema.Fill(d.extras, []),
       package := Schema.Fill(d.package, DefaultPackage),
       notas := Schema.Fill(d.notas, ""),
       delivery := Schema.Fill(d.delivery, DefaultDelivery),
       punto := Schema.Fill(d.punto, ""),
       dia := Schema.Fill(d.dia, ""),
       hora := Schema.Fill(d.hora, ""),
       status := Schema.Fill(d.status, DefaultStatus),
       createdAt := Schema.Fill(d.createdAt, now))
  }

  /** `r` keeps every value `d` has: the paths without defaults are equal,
      and each defaultable path that is present in `d` is unchanged. */
  predicate Agrees(d: OrderDoc, r: OrderDoc) {
    && r.customer == d.customer && r.quantity == d.quantity
    && r.phone == d.phone && r.total == d.total
    && (d.liquidos.Some? ==> r.liquidos == d.liquidos)
    && (d.frutas.Some? ==> r.frutas == d.frutas)
    && (d.toppings.Some? ==> r.toppings == d.toppings)
    && (d.extras.Some? ==> r.extras == d.extras)
    && (d.package.Some? ==> r.package == d.package)
    && (d.notas.Some? ==> r.notas == d.notas)
    && (d.delivery.Some? ==> r.delivery == d.delivery)
    && (d.punto.Some? ==> r.punto == d.punto)
    && (d.dia.Some? ==> r.dia == d.dia)
    && (d.hora.Some? ==> r.hora == d.hora)
    && (d.status.Some? ==> r.status == d.status)
    && (d.createdAt.Some? ==> r.createdAt == d.createdAt)
  }

  /** `new Order(data)`: the given values through their setters, and defaults
      for the paths left absent. Setters change only given paths and defaults
      fill only absent ones, so the order in which the two run does not matter. */
  function Create(d: OrderDoc, now: int): (r: OrderDoc)
    ensures TrimmedPaths(r)
    ensures Defaulted(r)
    ensures d.customer.Some? ==> r.customer == Some(Text.Trim(d.customer.value))
    ensures d.phone.Some? ==> r.phone == Some(Text.Trim(d.phone.value))
    ensures r.package == (if d.package.Some? then d.package else Some("Chocolate"))
    ensures r.delivery == (if d.delivery.Some? then d.delivery else Some("recoger"))
    ensures r.status == (if d.status.Some? then d.status else Some("Pendiente"))
    ensures r.quantity == d.quantity && r.total == d.total
    ensures Agrees(ApplyTrim(d), r)
    ensures d.liquidos.None? ==> r.liquidos == Some([])
    ensures d.frutas.None? ==> r.frutas == Some([])
    ensures d.toppings.None? ==> r.toppings == Some([])
    ensures d.extras.None? ==> r.extras == Some([])
    ensures d.notas.None? ==> r.notas == Some("")
    ensures d.punto.None? ==> r.punto == Some("")
    ensures d.dia.None? ==> r.dia == Some("")
    ensures d.hora.None? ==> r.hora == Some("")
    ensures d.createdAt.None? ==> r.createdAt == Some(now)
  {
    ApplyDefaults(ApplyTrim(d), now)
  }

  /** The document satisfies every validator of the schema, stated path by
      path: the required paths are present (a String one non-empty), the two
      minimums hold, and the enum paths hold a listed value when present. */
  predicate Conforms(d: OrderDoc) {
    && d.customer.Some? && d.customer.value != ""
    && d.quantity.Some? && d.quantity.value >= 1.0
    && d.package.Some? && d.package.value in Packages
    && (d.delivery.Some? ==> d.delivery.value in DeliveryModes)
    && d.phone.Some? && d.phone.value != ""
    && d.total.Some? && d.total.value >= 0.0
    && (d.status.Some? ==> d.status.value in Statuses)
  }

  /** `validate()`: the errors of the failing paths, in schema order. */
  function Validate(d: OrderDoc): (errs: seq<Schema.FieldError>)
    ensures |errs| <= 7
    ensures forall e :: e in errs ==> e.path in PathNames
  {
    CustomerErrors(d) + QuantityErrors(d) + PackageErrors(d) + DeliveryErrors(d)
    + PhoneErrors(d) + TotalErrors(d) + StatusErrors(d)
  }

  function CustomerErrors(d: OrderDoc): seq<Schema.FieldError> {
    Schema.CheckString("customer", d.customer, true, None)
  }
  function QuantityErrors(d: OrderDoc): seq<Schema.FieldError> {
    Schema.CheckNumber("quantity", d.quantity, true, Some(1.0))
  }
  function PackageErrors(d: OrderDoc): seq<Schema.FieldError> {
    Schema.CheckString("package", d.package, true, Some(Packages))
  }
  function DeliveryErrors(d: OrderDoc): seq<Schema.FieldError> {
    Schema.CheckString("delivery", d.delivery, false, Some(DeliveryModes))
  }
  function PhoneErrors(d: OrderDoc): seq<Schema.FieldError> {
    Schema.CheckString("phone", d.phone, true, None)
  }
  function TotalErrors(d: OrderDoc): seq<Schema.FieldError> {
    Schema.CheckNumber("total", d.total, true, Some(0.0))
  }
  function StatusErrors(d: OrderDoc): seq<Schema.FieldError> {
    Schema.CheckString("status", d.status, false, Some(Statuses))
  }

  /** No two errors name the same path. */
  predicate OnePerPath(errs: seq<Schema.FieldError>) {
    forall i, j :: 0 <= i < j < |errs| ==> errs[i].path != errs[j].path
  }

  /** Every error of `errs` names a path in `used`. */
  predicate PathsIn(errs: seq<Schema.FieldError>, used: set<string>) {
    forall e :: e in errs ==> e.path in used
  }

  /** Appending at most one error, on a path no earlier error names, keeps
      one error per path. */
  lemma {:induction false} AppendOnePerPath(a: seq<Schema.FieldError>, used: set<string>,
                                            b: seq<Schema.FieldError>, p: string)
    requires OnePerPath(a) && PathsIn(a, used)
    requires |b| <= 1 && PathsIn(b, {p}) && p !in used
    ensures OnePerPath(a + b) && PathsIn(a + b, used + {p})
  {
    forall i, j | 0 <= i < j < |a + b|
      ensures (a + b)[i].path != (a + b)[j].path
    {
      assert (a + b)[i] == a[i] && a[i] in a;
      if j < |a| {
        assert (a + b)[j] == a[j];
      } else {
        assert (a + b)[j] == b[0] && b[0] in b;
      }
    }
  }

  /** The errors of the first four validated paths name each path at most once. */
  lemma {:induction false} FirstPathsOnePerPath(d: OrderDoc)
    ensures var s := CustomerErrors(d) + QuantityErrors(d) + PackageErrors(d) + DeliveryErrors(d);
            OnePerPath(s) && PathsIn(s, {"customer", "quantity", "package", "delivery"})
  {
    var s0: seq<Schema.FieldError> := [];
    AppendOnePerPath(s0, {}, CustomerErrors(d), "customer");
    assert s0 + CustomerErrors(d) == CustomerErrors(d);
    var s1 := CustomerErrors(d);
    AppendOnePerPath(s1, {"customer"}, QuantityErrors(d), "quantity");
    var s2 := s1 + QuantityErrors(d);
    AppendOnePerPath(s2, {"customer", "quantity"}, PackageErrors(d), "package");
    var s3 := s2 + PackageErrors(d);
    AppendOnePerPath(s3, {"customer", "quantity", "package"}, DeliveryErrors(d), "delivery");
  }

  /** Mongoose reports at most one error per path: each validated path
      contributes at most one error, and no two contributions share a path. */
  lemma {:induction false} ValidateOnePerPath(d: OrderDoc)
    ensures OnePerPath(Validate(d))
  {
    FirstPathsOnePerPath(d);
    var s4 := CustomerErrors(d) + QuantityErrors(d) + PackageErrors(d) + DeliveryErrors(d);
    var used := {"customer", "quantity", "package", "delivery"};
    AppendOnePerPath(s4, used, PhoneErrors(d), "phone");
    var s5 := s4 + PhoneErrors(d);
    AppendOnePerPath(s5, used + {"phone"}, TotalErrors(d), "total");
    var s6 := s5 + TotalErrors(d);
    AppendOnePerPath(s6, used + {"phone"} + {"total"}, StatusErrors(d), "status");
  }

  /** Validation succeeds exactly when the document conforms. */
  lemma {:induction false} ValidateIff(d: OrderDoc)
    ensures Validate(d) == [] <==> Conforms(d)
  {
    assert CustomerErrors(d) == [] <==> (d.customer.Some? && d.customer.value != "");
    assert QuantityErrors(d) == [] <==> (d.quantity.Some? && d.quantity.value >= 1.0);
    assert PackageErrors(d) == [] <==> (d.package.Some? && d.package.value in Packages);
    assert DeliveryErrors(d) == [] <==> (d.delivery.Some? ==> d.delivery.value in DeliveryModes);
    assert PhoneErrors(d) == [] <==> (d.phone.Some? && d.phone.value != "");
    assert TotalErrors(d) == [] <==> (d.total.Some? && d.total.value >= 0.0);
    assert StatusErrors(d) == [] <==> (d.status.Some? ==> d.status.value in Statuses);
  }

  /** A quantity under the minimum is reported as such. */
  lemma QuantityBelowMinimum(d: OrderDoc)
    requires d.quantity.Some? && d.quantity.value < 1.0
    ensures Schema.BelowMin("quantity", d.quantity.value, 1.0) in Validate(d)
  {
    var v := Validate(d);
    var c := CustomerErrors(d);
    assert QuantityErrors(d) == [Schema.BelowMin("quantity", d.quantity.value, 1.0)];
    assert v[|c|] == QuantityErrors(d)[0];
  }

  /** A status outside the schema's enum is reported as such. */
  lemma StatusOutsideEnum(d: OrderDoc)
    requires d.status.Some? && d.status.value !in Statuses
    ensures Schema.NotInEnum("status", d.status.value) in Validate(d)
  {
    var v := Validate(d);
    var s := StatusErrors(d);
    assert s == [Schema.NotInEnum("status", d.status.value)];
    assert v[|v| - 1] == s[0];
  }

  /** A delivery mode outside the schema's enum is reported as such. */
  lemma DeliveryOutsideEnum(d: OrderDoc)
    requires d.delivery.Some? && d.delivery.value !in DeliveryModes
    ensures Schema.NotInEnum("delivery", d.delivery.value) in Validate(d)
  {
    var v := Validate(d);
    var pre := CustomerErrors(d) + QuantityErrors(d) + PackageErrors(d);
    assert DeliveryErrors(d) == [Schema.NotInEnum("delivery", d.delivery.value)];
    assert v[|pre|] == DeliveryErrors(d)[0];
  }

  const PathNames: set<string> := {"customer", "quantity", "package", "delivery", "phone", "total", "status"}

  /** Defaults are idempotent: filling a filled document changes nothing. */
  lemma DefaultsIdempotent(d: OrderDoc, now: int, later: int)
    ensures ApplyDefaults(ApplyDefaults(d, now), later) == ApplyDefaults(d, now)
  {
  }

  /** Creating a document twice is creating it once: the setters leave
      trimmed values alone and the defaults do not refill. */
  lemma CreateIdempotent(d: OrderDoc, now: int, later: int)
    ensures Create(Create(d, now), later) == Create(d, now)
  {
  }

  /** The defaults never make a document invalid: each default of an enum
      path is one of its listed values, and the other defaults fill paths
      without validators. */
  lemma DefaultsPreserveConformance(d: OrderDoc, now: int)
    requires Conforms(d)
    ensures Conforms(ApplyDefaults(d, now))
  {
  }

  /** A document without a `package` is stored as a Chocolate order rather
      than rejected: the default satisfies both `required` and the enum. */
  lemma MissingPackageDefaults(d: OrderDoc, now: int)
    requires d.package.None?
    ensures Schema.Required("package") !in Validate(Create(d, now))
    ensures Create(d, now).package == Some("Chocolate")
  {
  }
}

=== FILE: package_model.dfy ===
/** `PackageSchema`: its `trim` setter, defaults and validators. Ingredient
    references are ObjectId strings; the schema has no hook, so `updatedAt`
    is only ever the creation-time default. */
module PackageModel {
  import opened Wrappers
  import Text
  import Schema

  type ObjectId = string

  const DefaultIcon := "fas fa-box"

  datatype PackageDoc = PackageDoc(
    name: Option<string>,
    description: Option<string>,
    price: Option<real>,
    ingredients: Option<seq<ObjectId>>,
    available: Option<bool>,
    order: Option<real>,
    icon: Option<string>,
    createdAt: Option<int>,
    updatedAt: Option<int>)

  /** The `trim: true` setter of `name`; `description` and `icon` are not trimmed. */
  function ApplyTrim(d: PackageDoc): (r: PackageDoc)
    ensures r.name == Schema.TrimSetter(d.name)
    ensures r.description == d.description && r.icon == d.icon
    ensures Schema.TrimmedOpt(r.name)
    ensures r.name.Some? <==> d.name.Some?
    ensures r.(name := d.name) == d
  {
    d.(name := Schema.TrimSetter(d.name))
  }

  predicate Defaulted(d: PackageDoc) {
    && d.description.Some? && d.ingredients.Some? && d.available.Some?
    && d.order.Some? && d.icon.Some? && d.createdAt.Some? && d.updatedAt.Some?
  }

  /** The `default` options; an absent ingredient list becomes the empty list. */
  function ApplyDefaults(d: PackageDoc, now: int): (r: PackageDoc)
    ensures Defaulted(r)
    ensures r.name == d.name && r.price == d.price
    ensures r.description == (if d.description.Some? then d.description else Some(""))
    ensures r.ingredients == (if d.ingredients.Some? then d.ingredients else Some([]))
    ensures r.available == (if d.available.Some? then d.available else Some(true))
    ensures r.order == (if d.order.Some? then d.order else Some(0.0))
    ensures r.icon == (if d.icon.Some? then d.icon else Some(DefaultIcon))
    ensures r.createdAt == (if d.createdAt.Some? then d.createdAt else Some(now))
    ensures r.updatedAt == (if d.updatedAt.Some? then d.updatedAt else Some(now))
  {
    d.(description := Schema.Fill(d.description, ""),
       ingredients := Schema.Fill(d.ingredients, []),
       available := Schema.Fill(d.available, true),
       order := Schema.Fill(d.order, 0.0),
       icon := Schema.Fill(d.icon, DefaultIcon),
       createdAt := Schema.Fill(d.createdAt, now),
       updatedAt := Schema.Fill(d.updatedAt, now))
  }

  /** `new Package(data)`. */
  function Create(d: PackageDoc, now: int): (r: PackageDoc)
    ensures Schema.TrimmedOpt(r.name) && Defaulted(r)
    ensures d.name.Some? ==> r.name == Some(Text.Trim(d.name.value))
    ensures r.price == d.price
    ensures r.ingredients == (if d.ingredients.Some? then d.ingredients else Some([]))
    ensures r.description == (if d.description.Some? then d.description else Some(""))
    ensures r.available == (if d.available.Some? then d.available else Some(true))
    ensures r.order == (if d.order.Some? then d.order else Some(0.0))
    ensures r.icon == (if d.icon.Some? then d.icon else Some(DefaultIcon))
    ensures r.createdAt == (if d.createdAt.Some? then d.createdAt else Some(now))
    ensures r.updatedAt == (if d.updatedAt.Some? then d.updatedAt else Some(now))
  {
    ApplyDefaults(ApplyTrim(d), now)
  }

  predicate Conforms(d: PackageDoc) {
    && d.name.Some? && d.name.value != ""
    && d.price.Some? && d.price.value >= 0.0
  }

  function Validate(d: PackageDoc): (errs: seq<Schema.FieldError>)
    ensures |errs| <= 2
    ensures forall e :: e in errs ==> e.path in {"name", "price"}
  {
    Schema.CheckString("name", d.name, true, None)
    + Schema.CheckNumber("price", d.price, true, Some(0.0))
  }

  lemma ValidateIff(d: PackageDoc)
    ensures Validate(d) == [] <==> Conforms(d)
  {
  }

  /** Validity does not depend on defaults: a package is valid after
      creation exactly when its trimmed name is non-empty and a
      non-negative price was given. */
  lemma {:induction false} CreateValidIff(d: PackageDoc, now: int)
    ensures Validate(Create(d, now)) == [] <==>
              (d.name.Some? && Text.Trim(d.name.value) != "" && d.price.Some? && d.price.value >= 0.0)
  {
    ValidateIff(Create(d, now));
  }

  /** Creating twice is creating once. */
  lemma CreateIdempotent(d: PackageDoc, now: int, later: int)
    ensures Create(Create(d, now), later) == Create(d, now)
  {
    var c := Create(d, now);
    Text.TrimTrimmed(c.name.GetOr(""));
  }
}

=== FILE: schema.dfy ===
/** The Mongoose schema options the models use — `required`, `enum`, `min`,
    `trim` and `default` — as per-path checks and setters shared by the three
    models. A path reports at most one error: the `required` check runs first,
    and the `enum` or `min` check only when the value is present. */
module Schema {
  import opened Wrappers
  import Text

  datatype FieldError =
    | Required(path: string)
    | NotInEnum(path: string, given: string)
    | BelowMin(path: string, amount: real, min: real)
    | CastFailed(path: string)

  /** Mongoose's `required` test for a String path: absent and "" both fail. */
  predicate HasText(v: Option<string>) {
    v.Some? && |v.value| > 0
  }

  /** What a String path with these options accepts. */
  predicate StringOk(v: Option<string>, required: bool, allowed: Option<seq<string>>) {
    && (required ==> HasText(v))
    && (allowed.Some? && v.Some? ==> v.value in allowed.value)
  }

  /** What a Number path with these options accepts. */
  predicate NumberOk(v: Option<real>, required: bool, min: Option<real>) {
    && (required ==> v.Some?)
    && (min.Some? && v.Some? ==> v.value >= min.value)
  }

  function CheckString(path: string, v: Option<string>, required: bool, allowed: Option<seq<string>>)
    : (errs: seq<FieldError>)
    ensures |errs| <= 1
    ensures errs == [] <==> StringOk(v, required, allowed)
    ensures forall e :: e in errs ==> e.path == path
    ensures |errs| == 1 && required && !HasText(v) ==> errs[0] == Required(path)
    ensures (required ==> HasText(v)) && allowed.Some? && v.Some? && v.value !in allowed.value ==>
              errs == [NotInEnum(path, v.value)]
  {
    if required && !HasText(v) then [Required(path)]
    else if allowed.Some? && v.Some? && Text.IndexOf(allowed.value, v.value) == -1 then
      [NotInEnum(path, v.value)]
    else []
  }

  function CheckNumber(path: string, v: Option<real>, required: bool, min: Option<real>)
    : (errs: seq<FieldError>)
    ensures |errs| <= 1
    ensures errs == [] <==> NumberOk(v, required, min)
    ensures forall e :: e in errs ==> e.path == path
    ensures required && v.None? ==> errs == [Required(path)]
    ensures min.Some? && v.Some? && v.value < min.value ==> errs == [BelowMin(path, v.value, min.value)]
  {
    if required && v.None? then [Required(path)]
    else if min.Some? && v.Some? && v.value < min.value then [BelowMin(path, v.value, min.value)]
    else []
  }

  /** The `trim: true` setter. */
  function TrimSetter(v: Option<string>): (r: Option<string>)
    ensures r.None? <==> v.None?
    ensures v.Some? ==> r == Some(Text.Trim(v.value))
    ensures TrimmedOpt(r)
    ensures TrimmedOpt(v) ==> r == v
  {
    match v
    case None => None
    case Some(s) =>
      Text.TrimTrimmed(s);
      Some(Text.Trim(s))
  }

  /** The `default` option: fills an absent path, leaves a present one alone. */
  function Fill<T>(v: Option<T>, d: T): (r: Option<T>)
    ensures r.Some?
    ensures v.Some? ==> r == v
    ensures v.None? ==> r == Some(d)
  {
    Some(v.GetOr(d))
  }

  /** Every element of an array-of-String path with `trim: true`. */
  function TrimAll(xs: seq<string>): (r: seq<string>)
    ensures |r| == |xs|
    ensures forall i :: 0 <= i < |xs| ==> r[i] == Text.Trim(xs[i])
  {
    seq(|xs|, i requires 0 <= i < |xs| => Text.Trim(xs[i]))
  }

  /** The `trim: true` setter of an array-of-String path, element by element. */
  function TrimList(v: Option<seq<string>>): (r: Option<seq<string>>)
    ensures r.None? <==> v.None?
    ensures r.Some? ==> |r.value| == |v.value|
    ensures r.Some? ==> forall i :: 0 <= i < |v.value| ==> r.value[i] == Text.Trim(v.value[i])
    ensures TrimmedList(r)
    ensures TrimmedList(v) ==> r == v
  {
    match v
    case None => None
    case Some(xs) =>
      assert AllTrimmed(xs) ==> TrimAll(xs) == xs by {
        forall i | 0 <= i < |xs| ensures Text.IsTrimmed(xs[i]) ==> Text.Trim(xs[i]) == xs[i] {
          Text.TrimTrimmed(xs[i]);
        }
      }
      Some(TrimAll(xs))
  }

  predicate AllTrimmed(xs: seq<string>) {
    forall i :: 0 <= i < |xs| ==> Text.IsTrimmed(xs[i])
  }

  predicate TrimmedList(v: Option<seq<string>>) {
    v.Some? ==> AllTrimmed(v.value)
  }

  predicate TrimmedOpt(v: Option<string>) {
    v.Some? ==> Text.IsTrimmed(v.value)
  }
}

=== FILE: server.dfy ===
/** The request pipeline of the server around the modelled handlers: the
    CORS middleware first, then the route the request matched, then the
    fallback that answers every unmatched request with 404, and the global
    error handler that turns an error passed down the chain into a 500.
    Which route a method and path select is Express's routing and is given
    with the request. */
module Server {
  import opened Wrappers
  import Js
  import Http
  import Auth
  import Cors
  import Handlers
  import OrderModel

  /** The routes with decision logic, each with the inputs its handler reads. */
  datatype Route =
    | LoginRoute(username: Js.JsValue, password: Js.JsValue)       // POST /api/auth/login
    | RegisterTokenRoute(fcmToken: Js.JsValue)                      // POST /api/register-token
    | CreateOrderRoute(order: Handlers.OrderRequest)                // POST /api/pedidos
    | UpdateStatusRoute(id: string, status: Js.JsValue)             // PATCH /api/pedidos/:id

  /** `route` is `None` when no route declared before the fallback matches
      the method and path. `preflight` marks an `OPTIONS` request. */
  datatype Request = Request(
    origin: Option<string>,
    authorization: Option<string>,
    preflight: bool,
    route: Option<Route>)

  /** The answers of everything outside the server's own code. */
  datatype World = World(
    rt: Js.Runtime,
    now: int,
    verify: string -> Option<Auth.Claims>,
    findUser: Js.JsValue -> Http.StoreResult<Handlers.User>,
    comparePassword: (Js.JsValue, string) -> Handlers.PasswordCheck,
    sign: Auth.Claims -> Option<string>,
    setFcmToken: (string, Js.JsValue) -> Http.StoreResult<Handlers.User>,
    saveFault: Option<string>,
    orderById: string -> Http.StoreResult<OrderModel.OrderDoc>)

  const RouteNotFound := "Ruta no encontrada"

  /** Status of a successful preflight (the CORS middleware's default). */
  const PreflightStatus := 204

  /** The routes declared with the `auth` middleware. */
  predicate Protected(r: Route) {
    r.RegisterTokenRoute? || r.UpdateStatusRoute?
  }

  /** The matched route's handler, behind `auth` where the route declares it. */
  function Dispatch(r: Route, req: Request, w: World): (x: Http.Exchange)
    ensures Protected(r) && Auth.Authenticate(req.authorization, w.verify).Stop? ==>
              x.calls == [] && x.response.status == 401
    ensures x.response.status in {200, 201, 400, 401, 404, 500}
  {
    match r
    case LoginRoute(username, password) =>
      var found := w.findUser(username);
      var check := if found.Found? then w.comparePassword(password, found.value.passwordHash)
                   else Handlers.PasswordDiffers;
      Handlers.Login(username, password, found, check, w.sign)
    case RegisterTokenRoute(fcmToken) =>
      var register := (user: Auth.Claims) => Handlers.RegisterFcmToken(user, fcmToken, w.setFcmToken(user.id, fcmToken));
      assert forall user: Auth.Claims ::
        Handlers.RegisterFcmToken(user, fcmToken, w.setFcmToken(user.id, fcmToken)).response.status in {200, 400, 500};
      Handlers.WithAuth(req.authorization, w.verify, register)
    case CreateOrderRoute(order) =>
      Handlers.CreateOrder(w.rt, order, w.now, w.saveFault)
    case UpdateStatusRoute(id, status) =>
      Handlers.WithAuth(req.authorization, w.verify,
        (user: Auth.Claims) => Handlers.UpdateStatus(id, status, w.orderById(id)))
  }

  /** One request through the whole chain. */
  function Handle(req: Request, w: World): (x: Http.Exchange)
    ensures Cors.Decide(req.origin).Block? ==> x == Http.Reply(500, Http.InternalError)
    ensures Cors.Decide(req.origin).Allow? && req.preflight ==>
              x == Http.Exchange([], Http.Response(PreflightStatus, Http.NoContent))
    ensures Cors.Decide(req.origin).Allow? && !req.preflight && req.route.None? ==>
              x == Http.Reply(404, RouteNotFound)
    ensures x.calls != [] ==> Cors.Decide(req.origin).Allow? && !req.preflight && req.route.Some?
    ensures x.response.status in {200, 201, 204, 400, 401, 404, 500}
  {
    match Cors.Decide(req.origin)
    case Block(_) => Http.Reply(500, Http.InternalError)
    case Allow =>
      if req.preflight then Http.Exchange([], Http.Response(PreflightStatus, Http.NoContent))
      else
        match req.route
        case None => Http.Reply(404, RouteNotFound)
        case Some(r) => Dispatch(r, req, w)
  }

  /** A request without a valid token never reaches a protected handler:
      it gets 401 and nothing reaches the store. */
  lemma ProtectedNeedsToken(req: Request, w: World)
    requires Cors.Decide(req.origin).Allow? && !req.preflight
    requires req.route.Some? && Protected(req.route.value)
    requires Auth.Authenticate(req.authorization, w.verify).Stop?
    ensures Handle(req, w).calls == [] && Handle(req, w).response.status == 401
  {
  }

  /** Login and order creation are public: the `Authorization` header does
      not change their outcome. */
  lemma PublicRoutesIgnoreToken(req: Request, w: World, header: Option<string>)
    requires req.route.Some? && !Protected(req.route.value)
    ensures Handle(req.(authorization := header), w) == Handle(req, w)
  {
  }

  /** The CORS rejection goes to the global error handler: the client gets the
      generic 500, never the "No permitido por CORS" message, and a preflight
      from a listed origin still succeeds. */
  lemma CorsErrorIsGeneric500(req: Request, w: World)
    requires req.origin.Some? && req.origin.value !in Cors.AllowedOrigins && req.origin.value != ""
    ensures Handle(req, w).response == Http.Response(500, Http.Message(Http.InternalError))
    ensures Handle(req, w).response.body != Http.Message(Cors.BlockedMessage)
  {
  }
}

=== FILE: text.dfy ===
/** String operations the JavaScript source relies on: `String.prototype.trim`,
    `startsWith`, `split` on a single character and `Array.prototype.indexOf`. */
module Text {

  /** The characters `String.prototype.trim` removes: ECMAScript WhiteSpace
      (tab, vertical tab, form feed, space, no-break space, byte order mark and
      the Zs category) and LineTerminator (LF, CR, LS, PS). */
  predicate IsSpace(c: char) {
    || c == '\t' || c == '\n' || c == '\U{000B}' || c == '\U{000C}' || c == '\r'
    || c == ' ' || c == '\U{00A0}' || c == '\U{1680}'
    || ('\U{2000}' <= c <= '\U{200A}')
    || c == '\U{2028}' || c == '\U{2029}' || c == '\U{202F}' || c == '\U{205F}'
    || c == '\U{3000}' || c == '\U{FEFF}'
  }

  predicate AllSpace(s: string) {
    forall i :: 0 <= i < |s| ==> IsSpace(s[i])
  }

  /** Neither starts nor ends with a space character. */
  predicate IsTrimmed(s: string) {
    |s| == 0 || (!IsSpace(s[0]) && !IsSpace(s[|s| - 1]))
  }

  function TrimStart(s: string): (r: string)
    ensures |r| <= |s|
    ensures r == s[|s| - |r|..]
    ensures |r| == 0 || !IsSpace(r[0])
  {
    if |s| > 0 && IsSpace(s[0]) then TrimStart(s[1..]) else s
  }

  function TrimEnd(s: string): (r: string)
    ensures |r| <= |s|
    ensures r == s[..|r|]
    ensures |r| == 0 || !IsSpace(r[|r| - 1])
  {
    if |s| > 0 && IsSpace(s[|s| - 1]) then TrimEnd(s[..|s| - 1]) else s
  }

  /** `String.prototype.trim`. */
  function Trim(s: string): (r: string)
    ensures |r| <= |s|
    ensures IsTrimmed(r)
  {
    var t := TrimStart(s);
    var r := TrimEnd(t);
    assert |r| > 0 ==> r[0] == t[0];
    r
  }

  lemma {:induction false} TrimStartSkips(a: string, t: string)
    requires AllSpace(a)
    ensures TrimStart(a + t) == TrimStart(t)
    decreases |a|
  {
    if |a| > 0 {
      assert (a + t)[1..] == a[1..] + t;
      TrimStartSkips(a[1..], t);
    } else {
      assert a + t == t;
    }
  }

  lemma {:induction false} TrimEndSkips(t: string, b: string)
    requires AllSpace(b)
    ensures TrimEnd(t + b) == TrimEnd(t)
    decreases |b|
  {
    if |b| > 0 {
      assert (t + b)[..|t + b| - 1] == t + b[..|b| - 1];
      TrimEndSkips(t, b[..|b| - 1]);
    } else {
      assert t + b == t;
    }
  }

  /** Trim characterised without reference to its definition: whatever the
      surrounding spaces, trimming returns exactly the trimmed middle. */
  lemma TrimUnique(a: string, m: string, b: string)
    requires AllSpace(a) && AllSpace(b) && IsTrimmed(m)
    ensures Trim(a + m + b) == m
  {
    assert a + m + b == a + (m + b);
    TrimStartSkips(a, m + b);
    if |m| == 0 {
      assert m + b == b;
      TrimStartSkips(b, "");
      assert b + "" == b;
    } else {
      assert TrimStart(m + b) == m + b;
      TrimEndSkips(m, b);
    }
  }

  /** Trimming an already trimmed string is the identity; in particular
      `Trim(Trim(s)) == Trim(s)`. */
  lemma TrimTrimmed(m: string)
    ensures IsTrimmed(m) ==> Trim(m) == m
  {
    if IsTrimmed(m) {
      TrimUnique("", m, "");
      assert "" + m + "" == m;
    }
  }

  lemma TrimIdempotent(s: string)
    ensures Trim(Trim(s)) == Trim(s)
  {
    TrimTrimmed(Trim(s));
  }

  /** `String.prototype.startsWith`. */
  predicate StartsWith(s: string, prefix: string) {
    |prefix| <= |s| && s[..|prefix|] == prefix
  }

  /** `s.split(sep)` for a one-character separator: the maximal runs of
      non-separator characters, including empty ones, in order. */
  function Split(s: string, sep: char): (r: seq<string>)
    ensures |r| >= 1
    ensures forall i :: 0 <= i < |r| ==> sep !in r[i]
  {
    if |s| == 0 then [""]
    else
      var rest := Split(s[1..], sep);
      if s[0] == sep then [""] + rest
      else [[s[0]] + rest[0]] + rest[1..]
  }

  /** `parts.join(sep)`. */
  function Join(parts: seq<string>, sep: char): string
    requires |parts| >= 1
  {
    if |parts| == 1 then parts[0] else parts[0] + [sep] + Join(parts[1..], sep)
  }

  /** Joining the fields with the separator restores the string. */
  lemma {:induction false} JoinSplit(s: string, sep: char)
    ensures Join(Split(s, sep), sep) == s
    decreases |s|
  {
    if |s| > 0 {
      var rest := Split(s[1..], sep);
      JoinSplit(s[1..], sep);
      if s[0] == sep {
        assert Split(s, sep)[1..] == rest;
        assert s == [sep] + s[1..];
      } else {
        var r := Split(s, sep);
        if |rest| == 1 {
          assert r == [[s[0]] + rest[0]];
        } else {
          assert r[1..] == rest[1..];
          assert Join(rest, sep) == rest[0] + [sep] + Join(rest[1..], sep);
        }
        assert s == [s[0]] + s[1..];
      }
    }
  }

  /** Splitting a join of separator-free fields returns the fields. */
  lemma {:induction false} SplitJoin(parts: seq<string>, sep: char)
    requires |parts| >= 1
    requires forall i :: 0 <= i < |parts| ==> sep !in parts[i]
    ensures Split(Join(parts, sep), sep) == parts
    decreases |parts|
  {
    if |parts| == 1 {
      SplitFree(parts[0], sep);
    } else {
      SplitJoin(parts[1..], sep);
      SplitAfterField(parts[0], sep, Join(parts[1..], sep));
      assert parts[0] + [sep] + Join(parts[1..], sep) == parts[0] + ([sep] + Join(parts[1..], sep));
      assert [parts[0]] + parts[1..] == parts;
    }
  }

  /** A string without the separator is a single field. */
  lemma {:induction false} SplitFree(s: string, sep: char)
    requires sep !in s
    ensures Split(s, sep) == [s]
    decreases |s|
  {
    if |s| > 0 {
      assert sep !in s[1..] by {
        forall c | c in s[1..] ensures c != sep { }
      }
      SplitFree(s[1..], sep);
      assert s == [s[0]] + s[1..];
    }
  }

  /** A separator-free field followed by the separator splits off as the first field. */
  lemma {:induction false} SplitAfterField(a: string, sep: char, t: string)
    requires sep !in a
    ensures Split(a + ([sep] + t), sep) == [a] + Split(t, sep)
    decreases |a|
  {
    if |a| == 0 {
      assert a + ([sep] + t) == [sep] + t;
      assert ([sep] + t)[1..] == t;
    } else {
      assert (a + ([sep] + t))[1..] == a[1..] + ([sep] + t);
      assert sep !in a[1..] by {
        forall c | c in a[1..] ensures c != sep { }
      }
      SplitAfterField(a[1..], sep, t);
      assert a == [a[0]] + a[1..];
    }
  }

  /** A string splits into more than one field exactly when it contains the
      separator. */
  lemma {:induction false} SplitCountsSeparator(s: string, sep: char)
    ensures |Split(s, sep)| == 1 <==> sep !in s
  {
    if sep !in s {
      SplitFree(s, sep);
    } else {
      JoinSplit(s, sep);
    }
  }

  /** The first field of a string: everything before the first separator. */
  lemma FirstFieldOf(a: string, sep: char, t: string)
    requires sep !in a
    ensures Split(a, sep)[0] == a
    ensures Split(a + ([sep] + t), sep)[0] == a
  {
    SplitFree(a, sep);
    SplitAfterField(a, sep, t);
  }

  /** `Array.prototype.indexOf` (and `includes`, as `IndexOf(xs, x) != -1`):
      the position of the first element equal to `x`, or -1. */
  function IndexOf<T(==)>(xs: seq<T>, x: T): (i: int)
    ensures -1 <= i < |xs|
    ensures i == -1 <==> x !in xs
    ensures 0 <= i ==> xs[i] == x && x !in xs[..i]
  {
    if |xs| == 0 then -1
    else if xs[0] == x then 0
    else
      var j := IndexOf(xs[1..], x);
      assert xs[1..][..j + 1] == xs[1..j + 2];
      if j == -1 then -1 else j + 1
  }
}

=== FILE: wrappers.dfy ===
/** Optional values, used for absent document fields and for oracle answers. */
module Wrappers {

  datatype Option<+T> = None | Some(value: T) {

    /** The carried value, or `default` when absent. */
    function GetOr(default: T): T {
      match this
      case Some(v) => v
      case None => default
    }
  }
}
